=== FILE: README.md ===
# evosax core, modelled in Dafny

This project models the numerical core of evosax, a library of evolution
strategies. A strategy repeatedly *asks* for a population of candidate
solutions and is *told* their fitness, lower being better. The model covers
these parts:

- **Fitness shaping** (`FitnessShaper`): an optional sign flip for
  maximisation, an L2 weight-decay penalty, and at most one of three
  transforms (centered ranks, z-scores, range normalisation).
- **Simple GA**: sort by fitness, pick both parents among the elites, mask
  crossover, Gaussian mutation, and a floored decay of the mutation scale.
- **Simulated annealing**: Gaussian moves around an incumbent, Metropolis
  acceptance of the generation's best, and floored decays of the step size
  and the temperature.
- **OpenAI-ES**: antithetic Gaussian sampling, the Monte-Carlo gradient
  estimate, a gradient-optimizer step, and the step-size decay.
- **MA-ES**: candidates `mean + std * M z`, sorting of the stored noise, and
  the multiplicative update of the transformation matrix `M` (Eq. M11).
- **Learned-evolution tools**: the tanh time embedding, multi-timescale
  evolution paths, the fitness feature matrix, and the normalised distance to
  the best fitness.

Every file is a pure computation in the library: JAX functions over
immutable state records. The model is therefore made of datatypes for the
state and parameter records, functions for the operations, and lemmas for
what the operations guarantee.

Arithmetic is over `real`. Random draws are inputs (Gaussian rows, uniform
draws, parent indices). The NaN-filled placeholders of `_init` are `None`,
and the `+inf` sentinels are `PosInf`. Anything the core calls but does not
define is passed in as a function parameter:

- `sqrt`, `exp` and `tanh`;
- the gradient optimizer's `initialize`, `step` and `update`, and the `replace` that writes the learning rates into its default parameters;
- `exp_decay`;
- the CMA-ES `update_mean`, `update_p_std` and `update_std`;
- the vector norm.

Modules:

| file | module | models |
|---|---|---|
| `num.dfy` | `Num` | extended reals, options and results, clipping, floored decay, sums, min and max |
| `sorting.dfy` | `Sorting` | stable `argsort`, its inverse (`ranksort`), row gathering |
| `fitness.dfy` | `Fitness` | `evosax/core/fitness.py` |
| `linalg.dfy` | `Linalg` | dot products and the matrix products used by MA-ES |
| `simple_ga.dfy` | `SimpleGA` | `evosax/strategies/simple_ga.py` |
| `sim_anneal.dfy` | `SimAnneal` | `evosax/strategies/sim_anneal.py` |
| `les_tools.dfy` | `LesTools` | `evosax/learned_evolution/les_tools.py` |
| `open_es.dfy` | `OpenES` | `evosax/strategies/open_es.py` |
| `ma_es.dfy` | `MaES` | `evosax/strategies/ma_es.py` |

## Model

| member | source | states |
|---|---|---|
| Fitness.NewShaper | evosax/core/fitness.py:10-33 | A recognised `fitness_trafo` string decides the three transform flags. Otherwise the booleans are used. Construction fails exactly when more than one transform ends up on. An accepted shaper keeps `w_decay` and `maximize`. |
| Fitness.RawSelectsNoTransform | evosax/core/fitness.py:23-26 | `"raw"` switches every transform off, whatever the booleans say. |
| Fitness.StdDev | evosax/core/fitness.py:61 | The population standard deviation is non-negative. |
| Fitness.ZScore | evosax/core/fitness.py:59-61 | One score per member; what the scores are is stated by the three lemmas below. |
| Fitness.ZScoreSumsToZero | evosax/core/fitness.py:59-61 | The z-scores sum to zero. |
| Fitness.ZScoreSpread | evosax/core/fitness.py:59-61 | For an exact square root, the z-scores' standard deviation is `sd / (sd + 1e-10)`, where `sd` is the input's standard deviation: below 1, and close to 1 for non-constant input. |
| Fitness.ZScoreMonotone | evosax/core/fitness.py:59-61 | z-scoring keeps the strict order of fitness values, in both directions. |
| Fitness.CenteredRank | evosax/core/fitness.py:72-76 | One value per member, defined for any population size but 1; its bounds, extremes and order are stated by the lemmas below. |
| Fitness.CenteredRankBounds | evosax/core/fitness.py:72-76 | Every centered rank lies in [-0.5, 0.5]. |
| Fitness.CenteredRankLowest | evosax/core/fitness.py:64-76 | -0.5 goes exactly to the first member with the lowest fitness. |
| Fitness.CenteredRankHighest | evosax/core/fitness.py:64-76 | +0.5 goes exactly to the last member with the highest fitness. |
| Fitness.CenteredRankOrder | evosax/core/fitness.py:64-76 | A member gets a smaller centered rank iff it comes first in a stable ascending sort. |
| Fitness.L2Norm | evosax/core/fitness.py:79-81 | The mean of squared entries is non-negative. |
| Fitness.RangeNorm | evosax/core/fitness.py:84-92 | One value per member of a non-empty generation; its minimum and bounds are stated by the two lemmas below. |
| Fitness.RangeNormMinimum | evosax/core/fitness.py:84-92 | A minimal fitness is mapped exactly to `min_val`. |
| Fitness.RangeNormBounds | evosax/core/fitness.py:84-92 | Every output lies in [min_val, max_val]. |
| Fitness.AddWeightDecay | evosax/core/fitness.py:43-45 | Each fitness gets `w_decay` times its member's mean squared entry added. |
| Fitness.Penalised | evosax/core/fitness.py:38-45 | Member i's fitness, negated when maximising, plus `w_decay` times its mean of squares when `w_decay > 0`. |
| Fitness.Apply | evosax/core/fitness.py:36-56 | One shaped value per member; the lemmas below state which. |
| Fitness.ApplyAppliesTheEnabledTransform | evosax/core/fitness.py:36-56 | Under the at-most-one-transform invariant, `apply` returns the enabled transform of the penalised fitness, or the penalised fitness itself when none is on. |
| Fitness.ApplyDefaultIsIdentity | evosax/core/fitness.py:36-56 | With nothing configured, `apply` returns the fitness unchanged. |
| Fitness.ApplyMaximizeNegatesFirst | evosax/core/fitness.py:38-39 | Maximising equals minimising the negated fitness, and the negation comes before everything else. |
| Fitness.ApplyPenaltyOnlyWhenPositive | evosax/core/fitness.py:43-45 | The weight-decay penalty is added only when `w_decay > 0`. |
| Fitness.ApplyRanksPenalisedFitness | evosax/core/fitness.py:41-48 | Centered ranks are taken of the penalised fitness, not of the raw one. |
| Fitness.ApplyMaximizeRanksHighestFirst | evosax/core/fitness.py:38-48 | When maximising with centered ranks and no weight-decay penalty (`w_decay <= 0`), -0.5 goes to the first member with the highest raw fitness. |
| Sorting.Argsort | evosax/core/fitness.py:67 | `argsort` returns a permutation of the indices, strictly increasing in the stable fitness order. |
| Sorting.ArgsortAscending | evosax/strategies/ma_es.py:77 | Fitness never decreases in argsort order, and tied members keep their index order. |
| Sorting.Inverse | evosax/core/fitness.py:68 | `idx.at[idx].set(arange(n))` is the inverse permutation of `idx`. |
| Sorting.Ranks | evosax/core/fitness.py:64-69 | `ranksort` returns a permutation of `0 .. n-1`. |
| Sorting.RanksOrder | evosax/core/fitness.py:64-69 | rank[i] < rank[j] iff i precedes j in the stable order. |
| Sorting.RankZeroIffFirstArgmin | evosax/core/fitness.py:64-69 | Rank 0 belongs exactly to the first minimum. |
| Sorting.RankTopIffLastArgmax | evosax/core/fitness.py:64-69 | Rank n-1 belongs exactly to the last maximum. |
| Sorting.GatherPermutation | evosax/strategies/ma_es.py:78 | Reindexing rows by a permutation only reorders them: the multiset is unchanged. |
| SimpleGA.Init | evosax/strategies/simple_ga.py:57-66 | There is no population yet, every fitness is +inf, and `std` is `std_init`. |
| SimpleGA.InitSortsInIndexOrder | evosax/strategies/simple_ga.py:57-66 | The first sort after `_init` keeps members in index order. |
| SimpleGA.Crossover | evosax/strategies/simple_ga.py:114-119 | Gene d comes from parent 2 exactly when its uniform draw is below the crossover rate. |
| SimpleGA.CrossoverZeroRate | evosax/strategies/simple_ga.py:114-119 | At rate 0, the child is parent 1. |
| SimpleGA.DefaultsDoNotCross | evosax/strategies/simple_ga.py:48-55 | At the default crossover rate the child is parent 1. |
| SimpleGA.Mutation | evosax/strategies/simple_ga.py:122-124 | Adds `std` times the noise; with `std == 0` the solution is unchanged. |
| SimpleGA.Ask | evosax/strategies/simple_ga.py:68-96 | Returns one child per member while the population exists, and leaves the state unchanged. |
| SimpleGA.AskParentsAreElites | evosax/strategies/simple_ga.py:68-96 | Each child is the mutated crossover of two members whose rank is below `num_elites`. |
| SimpleGA.AskCopiesElitesWithoutVariation | evosax/strategies/simple_ga.py:68-96 | With zero rate and zero `std`, each child equals an elite. |
| SimpleGA.EliteBeatsNonElite | evosax/strategies/simple_ga.py:74-85 | An elite's fitness is no worse than any non-elite's. |
| SimpleGA.Tell | evosax/strategies/simple_ga.py:98-111 | Stores the told population and fitness, and sets `std` to `max(std * std_decay, std_limit)`. Nothing else changes. |
| SimpleGA.DefaultsKeepStd | evosax/strategies/simple_ga.py:48-55 | Under the default parameters `std` starts at 1 and `_tell` never changes it. |
| SimpleGA.TellStdNeverGrows | evosax/strategies/simple_ga.py:106 | Once `std` is non-negative and at or above its floor (`std_limit <= std`), and the decay is at most 1, `std` stays between `std_limit` and its old value. |
| SimpleGA.TellThenAskUsesToldElites | evosax/strategies/simple_ga.py:68-111 | After `_tell`, each child descends from a told member whose fitness is among the `num_elites` lowest, and no worse than any non-elite. |
| SimAnneal.Init | evosax/strategies/sim_anneal.py:61-71 | There is no incumbent, its fitness is +inf, and `std` and the temperature are at their initial values. |
| SimAnneal.Ask | evosax/strategies/sim_anneal.py:73-81 | Each candidate is the incumbent plus `std` times its noise row; the state is unchanged. |
| SimAnneal.AskZeroStd | evosax/strategies/sim_anneal.py:73-81 | With `std == 0`, each candidate is the incumbent. |
| SimAnneal.Argmin | evosax/strategies/sim_anneal.py:91-92 | Returns the first index of the smallest fitness. |
| SimAnneal.Replaces | evosax/strategies/sim_anneal.py:94-99 | Against +inf, and for any strict improvement, the move is accepted. At a zero `k * T` a non-improving move is rejected. Otherwise it is accepted iff `u < exp(-delta / (k T))`. |
| SimAnneal.Tell | evosax/strategies/sim_anneal.py:83-119 | The generation's best replaces the incumbent exactly when the Metropolis test accepts. `std` and the temperature decay with floors. The best-so-far fields are untouched. |
| SimAnneal.ImprovementAlwaysAccepted | evosax/strategies/sim_anneal.py:94-103 | A strict improvement is accepted whatever the uniform draw. |
| SimAnneal.DefaultsKeepTemperaturePositive | evosax/strategies/sim_anneal.py:49-59 | Under the default parameters the temperature starts at or above its floor 0.1 and `_tell` keeps it there, so `k * T >= 0.5` and the Metropolis test never meets a zero `k * T`. |
| SimAnneal.TellKeepsIncumbentConsistent | evosax/strategies/sim_anneal.py:91-103 | After `_tell` the incumbent and its fitness are either the old pair, or a told member together with its own told fitness. |
| SimAnneal.FirstTellAccepts | evosax/strategies/sim_anneal.py:94-99 | The first `_tell` after `_init`, whose incumbent fitness is `+inf`, always installs a finite incumbent. |
| SimAnneal.TellCools | evosax/strategies/sim_anneal.py:106-112 | Once each of `std` and the temperature is non-negative and at or above its floor, and both decays are at most 1, neither grows. |
| LesTools.TanhTimestamp | evosax/learned_evolution/les_tools.py:27-37 | Gives one `tanh(x / t - 1)` per timescale, over the 13 fixed timescales. |
| LesTools.TimestampFallsAlongTimescales | evosax/learned_evolution/les_tools.py:27-37 | For a monotone tanh and x >= 0, longer timescales never give a larger feature. |
| LesTools.PathInit | evosax/learned_evolution/les_tools.py:45-47 | A `num_dims x num_timescales` matrix of zeros. |
| LesTools.PathUpdate | evosax/learned_evolution/les_tools.py:49-57 | Column j moves the fraction `lr_j` of the way from its old value towards `diff`. |
| LesTools.PathUpdateBetween | evosax/learned_evolution/les_tools.py:52-53 | For a rate in [0, 1], each new entry lies between the old entry and the signal. |
| LesTools.PathUpdateExtremes | evosax/learned_evolution/les_tools.py:52-53 | Rate 0 keeps a column, and rate 1 replaces it with the signal. |
| LesTools.PathFirstUpdate | evosax/learned_evolution/les_tools.py:45-57 | The first update from zeros gives `lr_j * diff`. |
| LesTools.NormDiffBest | evosax/learned_evolution/les_tools.py:103-111 | The corrected normalised distance to the best fitness of a non-empty generation: one value per member, in [-1, 1]. |
| LesTools.NormDiffBestSignAndOrder | evosax/learned_evolution/les_tools.py:103-111 | The value is negative or zero exactly when the clipped fitness is below or equal to the best, and it keeps the fitness order. |
| LesTools.NormDiffBestAsWritten | evosax/learned_evolution/les_tools.py:108 | The code as written always fails: with a `ValueError` from `nanmax` exactly on an empty generation, and otherwise with a `TypeError`, since `jnp.nanmin` receives a bound method. |
| LesTools.NormDiffBestAsWrittenDiffers | evosax/learned_evolution/les_tools.py:103-111 | On every non-empty generation the as-written code raises `TypeError`, while the corrected one yields bounded features. |
| LesTools.ImprovedColumn | evosax/learned_evolution/les_tools.py:83 | The indicator is 1 iff the member beats the best fitness so far, and 0 otherwise. |
| LesTools.FeaturesApply | evosax/learned_evolution/les_tools.py:80-100 | One row per member. Column k is the feature of the k-th enabled kind, in the fixed order. |
| LesTools.ColumnsFollowLayout | evosax/learned_evolution/les_tools.py:83-100 | The conditionally concatenated columns equal the columns of the reference layout `EnabledFeatures`. |
| LesTools.FeatureCount | evosax/learned_evolution/les_tools.py:80-100 | The matrix has 1 + (number of enabled options) columns, with a non-zero `w_decay` counting as on. |
| LesTools.FirstColumnIsImprovement | evosax/learned_evolution/les_tools.py:82-83 | Column 0 flags improvement on the sign-adjusted fitness. |
| LesTools.LastColumnIsUnscaledL2 | evosax/learned_evolution/les_tools.py:97-99 | With `w_decay` set, the last column is the unscaled mean of squares. |
| OpenES.NewOpenES | evosax/strategies/open_es.py:33-65 | Accepted exactly when the population is even and the optimizer name is known; oddness is reported first. An accepted configuration keeps the learning-rate and sigma schedules. |
| OpenES.ParamsStrategy | evosax/strategies/open_es.py:66-80 | The optimizer's defaults with the configured `lrate_init`, `lrate_decay` and `lrate_limit` written in, the configured sigma schedule, a zero-width initialisation range, and clipping at the float32 maximum. |
| OpenES.InitializeStrategy | evosax/strategies/open_es.py:82-96 | The mean lies in [init_min, init_max]. `sigma` is `sigma_init` everywhere, the optimizer state is `initialize(opt_params)`, `best_member` is the mean, and `best_fitness` is the float32 maximum. |
| OpenES.DefaultInitStartsAtOrigin | evosax/strategies/open_es.py:26-27 | With the default parameters the mean starts at zero. |
| OpenES.SampledNoise | evosax/strategies/open_es.py:103-110 | Antithetic noise is the drawn rows followed by their negations; otherwise it is the drawn rows. |
| OpenES.Candidates | evosax/strategies/open_es.py:111 | Candidate i differs from the mean by `sigma * z_i` in every coordinate. |
| OpenES.AskStrategy | evosax/strategies/open_es.py:98-112 | Returns `popsize` candidates `mean + sigma * z` and leaves the state unchanged. |
| OpenES.AskMirrorsThroughMean | evosax/strategies/open_es.py:103-111 | Candidates i and i + popsize/2 average to the mean. |
| OpenES.Noise | evosax/strategies/open_es.py:123 | The reconstructed noise times `sigma` is `x - mean`, entry by entry. |
| OpenES.NoiseInvertsCandidates | evosax/strategies/open_es.py:111-123 | `(x - mean) / sigma` recovers the sampled noise when no sigma entry is zero. |
| OpenES.ThetaGrad | evosax/strategies/open_es.py:124 | Coordinate d is `1 / (popsize * sigma_d)` times the dot product of noise column d with the fitness. |
| OpenES.AntitheticGradient | evosax/strategies/open_es.py:124 | With mirrored noise, the gradient estimate is a sum of each draw times the fitness difference across its pair. |
| OpenES.FlatFitnessGivesZeroGradient | evosax/strategies/open_es.py:124 | Mirrored sampling on a constant fitness estimates a zero gradient. |
| OpenES.TellStrategy | evosax/strategies/open_es.py:114-132 | The mean and the optimizer state come from `step` and then `update` on the estimated gradient. `sigma` comes from `exp_decay`. Nothing else changes. |
| OpenES.AskThenTellUsesSampledNoise | evosax/strategies/open_es.py:98-132 | Telling the candidates of the preceding ask feeds the optimizer the gradient of the noise that was drawn. |
| MaES.Init | evosax/strategies/ma_es.py:43-54 | `M` is the identity and the path and noise are zeros. There is no mean yet and the best fitness is +inf. |
| MaES.Ask | evosax/strategies/ma_es.py:56-66 | One candidate `mean + (std z_i) M^T` per row, exactly while the mean exists; the state keeps `z`. |
| MaES.Candidate | evosax/strategies/ma_es.py:64 | One candidate of the mean's length; its value is stated by the two lemmas below. |
| MaES.CandidateIsTransformedNoise | evosax/strategies/ma_es.py:64 | Each candidate is `mean + std * (M z_i)`. |
| MaES.IdentityTransformIsIsotropic | evosax/strategies/ma_es.py:48-64 | With `M = I`, as after `_init`, each candidate is `mean + std * z_i`. |
| MaES.UpdateFactor | evosax/strategies/ma_es.py:101-106 | The Eq. (M11) factor is an `n x n` matrix; its symmetry is stated below. |
| MaES.UpdateM | evosax/strategies/ma_es.py:97-106 | `M` times the factor is again `n x n`; when it leaves `M` unchanged is stated below. |
| MaES.UpdateFactorSymmetric | evosax/strategies/ma_es.py:101-106 | The Eq. (M11) factor is a symmetric matrix. |
| MaES.UpdateMStationary | evosax/strategies/ma_es.py:97-106 | `M` is unchanged when both the rank-one and the rank-mu terms either have a zero rate or already equal the identity. |
| MaES.Tell | evosax/strategies/ma_es.py:68-95 | Sorts `z` by fitness, then updates the mean, `p_std` (from `weights @ z`), `std` (from `norm(p_std)`) and `M`. The best-so-far fields are untouched. |
| MaES.TellKeepsShape | evosax/strategies/ma_es.py:68-95 | `_tell` keeps every shape, so `_ask` can follow it. |
| MaES.TellSortsNoise | evosax/strategies/ma_es.py:77-78 | The stored noise keeps the same rows as a multiset, in ascending fitness order, with ties in sampled order. |

## Left out

- Neural-network parts of the learned-evolution tools are not modelled: `AttentionWeights`, `EvoPathMLP` (les_tools.py:114-148) and the pickle loader `load_pkl_object` (les_tools.py:17-24). They are Flax layers and file I/O.
- The generic `Strategy` wrapper is not part of this model. It owns the random keys, `num_elites`, the best-so-far tracking and the generation counter. The state records carry its fields. The `Init` functions set them, and after initialisation every operation here leaves them unchanged.
- The random number generator is not modelled. Every draw (`jax.random.normal`, `uniform`, `choice`) is an input to the operation that uses it.
- NaN propagation and float32 rounding are not modelled. NaN placeholders become `None`, and `nanmean`, `nanstd`, `nanmin` and `nanmax` are their plain counterparts on NaN-free data.
- `sqrt`, `exp`, `tanh` and the vector norm are parameters. Lemmas assume only what they state (a non-negative `sqrt`, an exact `sqrt` for `Fitness.ZScoreSpread`, a non-decreasing `tanh`).
- The gradient optimizers (`GradientOptimizer.initialize`, `step` and `update`, and the `replace` on their parameters), `exp_decay`, and the inherited CMA-ES `update_mean`, `update_p_std` and `update_std` are not part of this model. They enter as function parameters.
- The feature transforms used by les_tools.py come from `fitness_shaping`, which is not part of this model. Their definitions from evosax/core/fitness.py stand in for them (centered ranks, z-scores, range normalisation, mean of squares).
- Fitness.L2Norm: requires a solution with at least one entry. On an empty last axis the library's `nanmean` returns NaN. The condition carries over. `Fitness.AddWeightDecay` requires non-empty solutions always. `Fitness.Penalised` and `Fitness.Apply` (through `CanApply`) require them when `w_decay > 0`. `LesTools.FeaturesApply` (through `CanFeaturize`) requires them when `w_decay != 0`.
- Fitness.CenteredRank: requires a population other than one member. The library divides by `n - 1 = 0` there and returns NaN.
- Fitness.RangeNorm: requires a non-empty generation. The library's `nanmin` and `nanmax` raise `ValueError` on a zero-size array.
- LesTools.NormDiffBest: requires a non-empty generation, for the same reason (`nanmax` raises `ValueError`).
- LesTools.FeaturesApply: requires a finite best fitness when the distance-to-best feature is on. On a first generation the best is `+inf`. Then `fitness - best` is `-inf` for every member, the range `-inf - (-inf)` is NaN, and every feature is NaN.
- OpenES.TellStrategy: requires a positive population and no zero entry in `sigma`. The library divides by them and yields inf or NaN.
- SimAnneal.Tell: a zero `k * T` counts as rejecting every non-improving move. The library computes `exp(-delta / 0)`, which is 0 or NaN, and neither passes `u < ...`.
- The `clip_min` and `clip_max` fields of `EvoParams` are carried but never applied, because clipping happens in the `Strategy` wrapper.

## Findings

| source | as written | input that shows it | evidently intended | confidence | as-written member | corrected member |
|---|---|---|---|---|---|---|
| evosax/learned_evolution/les_tools.py:108 | `jnp.nanmin(diff_best.min)` passes the bound method `min` instead of the array | any non-empty generation, e.g. fitness `[0.0, 1.0]`, best fitness `0.0` | `jnp.nanmin(diff_best)`, so the difference is divided by its range and clipped to [-1, 1] | not executed | LesTools.NormDiffBestAsWritten | LesTools.NormDiffBest |

=== FILE: fitness.dfy ===
/** Fitness shaping: the validated configuration of `FitnessShaper`, its
    fixed-order `apply` pipeline and the rank, z-score, range and L2
    transforms (evosax/core/fitness.py). */
module Fitness {
  import opened Num
  import opened Sorting
  import Linalg

  /** A configured shaper. Only `NewShaper` builds one from user options. */
  datatype Shaper = Shaper(
    centeredRank: bool,
    zScore: bool,
    normRange: bool,
    wDecay: real,
    maximize: bool)

  datatype ConfigError = MultipleTransforms

  function Count(b: bool): nat { if b then 1 else 0 }

  function NumTransformsOn(centeredRank: bool, zScore: bool, normRange: bool): nat {
    Count(centeredRank) + Count(zScore) + Count(normRange)
  }

  /** The shaper invariant: at most one of the exclusive transforms is on. */
  predicate AtMostOneTransform(s: Shaper) {
    NumTransformsOn(s.centeredRank, s.zScore, s.normRange) < 2
  }

  /** The `fitness_trafo` strings that override the boolean options. */
  predicate IsTrafoName(t: Option<string>) {
    t.Some? && t.value in ["centered_rank", "z_score", "norm_range", "raw"]
  }

  /** `FitnessShaper.__init__`: a recognised `fitness_trafo` decides the three
      flags; otherwise the booleans do. More than one flag on is an error. */
  function NewShaper(
    centeredRank: bool, zScore: bool, normRange: bool,
    wDecay: real, maximize: bool, fitnessTrafo: Option<string>): (r: Result<Shaper, ConfigError>)
    ensures r.Ok? ==> AtMostOneTransform(r.value)
    ensures r.Ok? ==> r.value.wDecay == wDecay && r.value.maximize == maximize
    ensures r.Err? <==> !IsTrafoName(fitnessTrafo) && NumTransformsOn(centeredRank, zScore, normRange) >= 2
    ensures IsTrafoName(fitnessTrafo) ==>
      && r.Ok?
      && (r.value.centeredRank <==> fitnessTrafo.value == "centered_rank")
      && (r.value.zScore <==> fitnessTrafo.value == "z_score")
      && (r.value.normRange <==> fitnessTrafo.value == "norm_range")
    ensures !IsTrafoName(fitnessTrafo) && r.Ok? ==>
      r.value.centeredRank == centeredRank && r.value.zScore == zScore && r.value.normRange == normRange
  {
    var s :=
      if IsTrafoName(fitnessTrafo) then
        Shaper(fitnessTrafo.value == "centered_rank", fitnessTrafo.value == "z_score",
               fitnessTrafo.value == "norm_range", wDecay, maximize)
      else
        Shaper(centeredRank, zScore, normRange, wDecay, maximize);
    if AtMostOneTransform(s) then Ok(s) else Err(MultipleTransforms)
  }

  /** The `"raw"` selector switches every transform off, whatever the booleans. */
  lemma RawSelectsNoTransform(centeredRank: bool, zScore: bool, normRange: bool, wDecay: real, maximize: bool)
    ensures var r := NewShaper(centeredRank, zScore, normRange, wDecay, maximize, Some("raw"));
            r.Ok? && !r.value.centeredRank && !r.value.zScore && !r.value.normRange
  {
    assert IsTrafoName(Some("raw"));
    assert "raw" != "centered_rank" && "raw" != "z_score" && "raw" != "norm_range";
  }

  // ---- Transforms ---------------------------------------------------------

  /** What the model needs of the square root it is given. */
  ghost predicate SqrtNonNegative(sqrt: real -> real) {
    forall v :: 0.0 <= v ==> 0.0 <= sqrt(v)
  }

  /** `jnp.nanstd` (population standard deviation) of non-empty values. */
  function StdDev(f: seq<real>, sqrt: real -> real): (sd: real)
    requires |f| > 0
    requires SqrtNonNegative(sqrt)
    ensures sd >= 0.0
  {
    sqrt(Sum(SquaredDeviations(f)) / (|f| as real))
  }

  /** `(f_i - mean)^2` for every member. */
  function SquaredDeviations(f: seq<real>): (sq: seq<real>)
    requires |f| > 0
    ensures |sq| == |f| && forall i :: 0 <= i < |f| ==> sq[i] == Square(f[i] - Mean(f))
    ensures Sum(sq) >= 0.0
  {
    var m := Mean(f);
    var sq := seq(|f|, i requires 0 <= i < |f| => Square(f[i] - m));
    SumNonNegative(sq);
    sq
  }

  /** `z_score_trafo`: subtract the mean, divide by the standard deviation plus
      epsilon. */
  function ZScore(f: seq<real>, sqrt: real -> real): (r: seq<real>)
    requires SqrtNonNegative(sqrt)
    ensures |r| == |f|
  {
    if |f| == 0 then []
    else
      var m := Mean(f);
      var d := StdDev(f, sqrt) + Eps;
      seq(|f|, i requires 0 <= i < |f| => (f[i] - m) / d)
  }

  /** The z-scores are centred: they sum to zero. */
  lemma ZScoreSumsToZero(f: seq<real>, sqrt: real -> real)
    requires SqrtNonNegative(sqrt)
    ensures Sum(ZScore(f, sqrt)) == 0.0
  {
    if |f| > 0 {
      var m := Mean(f);
      var d := StdDev(f, sqrt) + Eps;
      SumCentered(f, ZScore(f, sqrt), m, d);
      MeanTimesCount(Sum(f), |f| as real);
    }
  }

  /** A square root that is exact on the non-negative reals. */
  ghost predicate SqrtExact(sqrt: real -> real) {
    forall v :: 0.0 <= v ==> 0.0 <= sqrt(v) && Square(sqrt(v)) == v
  }

  /** The z-scores' own standard deviation is `sd / (sd + 1e-10)` for the
      input's `sd`: below one, and as close to one as the epsilon allows when
      the input is not constant. */
  lemma ZScoreSpread(f: seq<real>, sqrt: real -> real)
    requires |f| > 0 && SqrtExact(sqrt)
    ensures StdDev(ZScore(f, sqrt), sqrt) == StdDev(f, sqrt) / (StdDev(f, sqrt) + Eps)
    ensures StdDev(ZScore(f, sqrt), sqrt) < 1.0
  {
    var n := |f| as real;
    var total := Sum(SquaredDeviations(f));
    var s := StdDev(f, sqrt);
    var d := s + Eps;
    var z := ZScore(f, sqrt);
    ZScoreSquares(f, sqrt);
    var totalZ := Sum(SquaredDeviations(z));
    assert totalZ == total / Square(d);
    var u := StdDev(z, sqrt);
    assert s == sqrt(total / n) && Square(s) == total / n;
    assert u == sqrt(totalZ / n) && u >= 0.0 && Square(u) == totalZ / n;
    SpreadOfScaled(total, n, s, d, u);
  }

  /** The squared deviations of the z-scores are those of the input divided
      by the squared denominator. */
  lemma ZScoreSquares(f: seq<real>, sqrt: real -> real)
    requires |f| > 0 && SqrtNonNegative(sqrt)
    ensures var d := StdDev(f, sqrt) + Eps;
            Square(d) > 0.0 && Sum(SquaredDeviations(ZScore(f, sqrt))) == Sum(SquaredDeviations(f)) / Square(d)
  {
    var m := Mean(f);
    var d := StdDev(f, sqrt) + Eps;
    var z := ZScore(f, sqrt);
    PositiveSquare(d);
    ZScoreSumsToZero(f, sqrt);
    assert Mean(z) == 0.0;
    var sq, sqz := SquaredDeviations(f), SquaredDeviations(z);
    forall i | 0 <= i < |f| ensures sqz[i] == (sq[i] - 0.0) / Square(d) {
      assert z[i] == (f[i] - m) / d;
      SquareOfQuotient(f[i] - m, d);
    }
    SumCentered(sq, sqz, 0.0, Square(d));
  }

  /** If `s^2 == total / n` and `u` is the non-negative root of
      `(total / d^2) / n`, then `u == s / d`, which is below one as `s < d`. */
  lemma SpreadOfScaled(total: real, n: real, s: real, d: real, u: real)
    requires n > 0.0 && s >= 0.0 && d > s && Square(d) > 0.0
    requires Square(s) == total / n
    requires u >= 0.0 && Square(u) == (total / Square(d)) / n
    ensures u == s / d && u < 1.0
  {
    SquareOfQuotient(s, d);
    DivDiv(total, Square(d), n);
    QuotientBelowOne(s, d);
    SquareRootUnique(s / d, u);
  }

  lemma MeanTimesCount(total: real, n: real)
    requires n > 0.0
    ensures total - n * (total / n) == 0.0
  {
  }

  /** z-scoring keeps the order of the fitness values. */
  lemma ZScoreMonotone(f: seq<real>, sqrt: real -> real, i: nat, j: nat)
    requires SqrtNonNegative(sqrt)
    requires i < |f| && j < |f|
    ensures f[i] < f[j] <==> ZScore(f, sqrt)[i] < ZScore(f, sqrt)[j]
  {
    var m := Mean(f);
    var d := StdDev(f, sqrt) + Eps;
    DivMonotone(f[i] - m, f[j] - m, d);
  }

  lemma DivMonotone(a: real, b: real, d: real)
    requires d > 0.0
    ensures a < b <==> a / d < b / d
  {
    assert a / d * d == a && b / d * d == b;
    if a / d < b / d {
      assert (a / d) * d < (b / d) * d;
    }
  }

  /** `centered_rank_trafo`: ranks scaled by `n - 1` and shifted by one half.
      A single member would divide zero by zero. */
  function CenteredRank(f: seq<real>): (r: seq<real>)
    requires |f| != 1
    ensures |r| == |f|
  {
    var rank := Ranks(Lift(f));
    seq(|f|, i requires 0 <= i < |f| => (rank[i] as real) / ((|f| - 1) as real) - 0.5)
  }

  lemma UnitFraction(a: real, b: real)
    requires 0.0 <= a <= b && b > 0.0
    ensures 0.0 <= a / b <= 1.0
    ensures a / b == 0.0 <==> a == 0.0
    ensures a / b == 1.0 <==> a == b
  {
    assert a / b * b == a;
  }

  /** Every centered rank lies in `[-0.5, 0.5]`. */
  lemma CenteredRankBounds(f: seq<real>, i: nat)
    requires |f| >= 2 && i < |f|
    ensures -0.5 <= CenteredRank(f)[i] <= 0.5
  {
    var rank := Ranks(Lift(f));
    UnitFraction(rank[i] as real, (|f| - 1) as real);
  }

  /** `-0.5` goes exactly to the lowest fitness (the first one among ties). */
  lemma CenteredRankLowest(f: seq<real>, i: nat)
    requires |f| >= 2 && i < |f|
    ensures CenteredRank(f)[i] == -0.5 <==> IsFirstArgmin(Lift(f), i)
  {
    var rank := Ranks(Lift(f));
    UnitFraction(rank[i] as real, (|f| - 1) as real);
    RankZeroIffFirstArgmin(Lift(f), i);
  }

  /** `+0.5` goes exactly to the highest fitness (the last one among ties). */
  lemma CenteredRankHighest(f: seq<real>, i: nat)
    requires |f| >= 2 && i < |f|
    ensures CenteredRank(f)[i] == 0.5 <==> IsLastArgmax(Lift(f), i)
  {
    var rank := Ranks(Lift(f));
    UnitFraction(rank[i] as real, (|f| - 1) as real);
    RankTopIffLastArgmax(Lift(f), i);
  }

  /** Centered ranks order the members as a stable ascending sort does:
      lower fitness first, ties by index. */
  lemma CenteredRankOrder(f: seq<real>, i: nat, j: nat)
    requires |f| >= 2 && i < |f| && j < |f|
    ensures CenteredRank(f)[i] < CenteredRank(f)[j] <==> Before(Lift(f), i, j)
  {
    var rank := Ranks(Lift(f));
    RanksOrder(Lift(f), i, j);
    DivMonotone(rank[i] as real, rank[j] as real, (|f| - 1) as real);
  }

  /** `compute_l2_norm` of one solution: the mean of its squared entries. */
  function L2Norm(x: Vector): (r: real)
    requires |x| > 0
    ensures r >= 0.0
  {
    var sq := seq(|x|, d requires 0 <= d < |x| => Square(x[d]));
    SumNonNegative(sq);
    Mean(sq)
  }

  /** `range_norm_trafo`: clip to `[-1e10, 1e10]`, then map affinely so that
      the minimum goes to `minVal` and the range fits in `[minVal, maxVal]`.
      An empty generation is refused, as the reduction over it raises. */
  function RangeNorm(f: seq<real>, minVal: real, maxVal: real): (r: seq<real>)
    requires |f| > 0
    ensures |r| == |f|
  {
    var c := ClipAll(f, -ClipBound, ClipBound);
    var lo := SeqMin(c);
    var hi := SeqMax(c);
    seq(|f|, i requires 0 <= i < |f| => RangeMap(c[i], lo, hi, minVal, maxVal))
  }

  /** The affine map of one clipped value, given the clipped minimum and maximum. */
  function RangeMap(x: real, lo: real, hi: real, minVal: real, maxVal: real): real
    requires lo <= hi
  {
    (maxVal - minVal) * (x - lo) / (hi - lo + Eps) + minVal
  }

  lemma RangeMapProperties(x: real, lo: real, hi: real, minVal: real, maxVal: real)
    requires lo <= x <= hi
    ensures x == lo ==> RangeMap(x, lo, hi, minVal, maxVal) == minVal
    ensures minVal <= maxVal ==> minVal <= RangeMap(x, lo, hi, minVal, maxVal) <= maxVal
  {
    var q := (x - lo) / (hi - lo + Eps);
    UnitFraction(x - lo, hi - lo + Eps);
    assert (maxVal - minVal) * (x - lo) / (hi - lo + Eps) == (maxVal - minVal) * q;
    if minVal <= maxVal {
      ScaleUnit(maxVal - minVal, q);
    }
  }

  lemma ClipMonotone(a: real, b: real, lo: real, hi: real)
    requires lo <= hi && a <= b
    ensures Clip(a, lo, hi) <= Clip(b, lo, hi)
  {
  }

  /** A minimum of the input is sent exactly to `minVal`. */
  lemma RangeNormMinimum(f: seq<real>, minVal: real, maxVal: real, i: nat)
    requires i < |f|
    requires forall j :: 0 <= j < |f| ==> f[i] <= f[j]
    ensures RangeNorm(f, minVal, maxVal)[i] == minVal
  {
    var c := ClipAll(f, -ClipBound, ClipBound);
    forall j | 0 <= j < |f| ensures c[i] <= c[j] {
      ClipMonotone(f[i], f[j], -ClipBound, ClipBound);
    }
    var lo := SeqMin(c);
    assert lo == c[i];
    RangeMapProperties(c[i], lo, SeqMax(c), minVal, maxVal);
  }

  /** Every output lies in `[minVal, maxVal]` when `minVal <= maxVal`. */
  lemma RangeNormBounds(f: seq<real>, minVal: real, maxVal: real, i: nat)
    requires minVal <= maxVal && i < |f|
    ensures minVal <= RangeNorm(f, minVal, maxVal)[i] <= maxVal
  {
    var c := ClipAll(f, -ClipBound, ClipBound);
    var lo := SeqMin(c);
    RangeMapProperties(c[i], lo, SeqMax(c), minVal, maxVal);
  }

  // ---- The pipeline -------------------------------------------------------

  /** Adds `w * compute_l2_norm(x_i)` to each member's fitness. */
  function AddWeightDecay(f: seq<real>, pop: seq<Vector>, w: real): (r: seq<real>)
    requires |pop| == |f|
    requires forall i :: 0 <= i < |pop| ==> |pop[i]| > 0
    ensures |r| == |f| && forall i :: 0 <= i < |f| ==> r[i] == f[i] + w * L2Norm(pop[i])
  {
    seq(|f|, i requires 0 <= i < |f| => f[i] + w * L2Norm(pop[i]))
  }

  /** What `apply` needs: index-aligned population and fitness, non-empty
      solutions when the penalty is on, a real centered rank, a non-empty
      generation for the range transform (a zero-size `nanmin` raises), a
      sound sqrt. */
  ghost predicate CanApply(s: Shaper, pop: seq<Vector>, fitness: seq<real>, sqrt: real -> real) {
    && |pop| == |fitness|
    && (s.wDecay > 0.0 ==> forall i :: 0 <= i < |pop| ==> |pop[i]| > 0)
    && (s.centeredRank ==> |fitness| != 1)
    && (s.normRange ==> |fitness| > 0)
    && SqrtNonNegative(sqrt)
  }

  /** `FitnessShaper.apply`: negate if maximising, then add the weight-decay
      penalty if `w_decay > 0`, then the enabled transform. */
  function Apply(s: Shaper, pop: seq<Vector>, fitness: seq<real>, sqrt: real -> real): (r: seq<real>)
    requires CanApply(s, pop, fitness, sqrt)
    ensures |r| == |fitness|
  {
    var f0 := if s.maximize then Linalg.Scale(-1.0, fitness) else fitness;
    var f1 := if s.wDecay > 0.0 then AddWeightDecay(f0, pop, s.wDecay) else f0;
    var f2 := if s.centeredRank then CenteredRank(f1) else f1;
    var f3 := if s.zScore then ZScore(f2, sqrt) else f2;
    if s.normRange then RangeNorm(f3, -1.0, 1.0) else f3
  }

  /** The fitness every transform sees: sign-adjusted for maximisation, plus
      `w_decay` times each member's mean of squares when `w_decay > 0`. */
  function Penalised(s: Shaper, pop: seq<Vector>, fitness: seq<real>): (p: seq<real>)
    requires |pop| == |fitness|
    requires s.wDecay > 0.0 ==> forall i :: 0 <= i < |pop| ==> |pop[i]| > 0
    ensures |p| == |fitness|
    ensures forall i :: 0 <= i < |fitness| ==>
      p[i] == (if s.maximize then -fitness[i] else fitness[i]) + (if s.wDecay > 0.0 then s.wDecay * L2Norm(pop[i]) else 0.0)
  {
    var f0 := if s.maximize then Linalg.Scale(-1.0, fitness) else fitness;
    if s.wDecay > 0.0 then AddWeightDecay(f0, pop, s.wDecay) else f0
  }

  /** The shaper's invariant makes the fixed pipeline pick one transform: the
      enabled one is applied to the penalised fitness, and with none enabled
      the penalised fitness is the result. */
  lemma ApplyAppliesTheEnabledTransform(s: Shaper, pop: seq<Vector>, fitness: seq<real>, sqrt: real -> real)
    requires CanApply(s, pop, fitness, sqrt) && AtMostOneTransform(s)
    ensures var p := Penalised(s, pop, fitness);
            && (s.centeredRank ==> Apply(s, pop, fitness, sqrt) == CenteredRank(p))
            && (s.zScore ==> Apply(s, pop, fitness, sqrt) == ZScore(p, sqrt))
            && (s.normRange ==> Apply(s, pop, fitness, sqrt) == RangeNorm(p, -1.0, 1.0))
            && (!s.centeredRank && !s.zScore && !s.normRange ==> Apply(s, pop, fitness, sqrt) == p)
  {
  }

  /** With nothing configured, `apply` returns the fitness unchanged. */
  lemma ApplyDefaultIsIdentity(s: Shaper, pop: seq<Vector>, fitness: seq<real>, sqrt: real -> real)
    requires CanApply(s, pop, fitness, sqrt)
    requires !s.centeredRank && !s.zScore && !s.normRange && !s.maximize && s.wDecay <= 0.0
    ensures Apply(s, pop, fitness, sqrt) == fitness
  {
  }

  /** Maximising is minimising the negated fitness: the negation happens
      before everything else. */
  lemma ApplyMaximizeNegatesFirst(s: Shaper, pop: seq<Vector>, fitness: seq<real>, sqrt: real -> real)
    requires CanApply(s, pop, fitness, sqrt) && s.maximize
    ensures Apply(s, pop, fitness, sqrt) == Apply(s.(maximize := false), pop, Linalg.Scale(-1.0, fitness), sqrt)
  {
  }

  /** Without a transform, the result is the (sign-adjusted) fitness plus the
      penalty, and the penalty is present exactly when `w_decay > 0`. */
  lemma ApplyPenaltyOnlyWhenPositive(s: Shaper, pop: seq<Vector>, fitness: seq<real>, sqrt: real -> real, i: nat)
    requires CanApply(s, pop, fitness, sqrt)
    requires !s.centeredRank && !s.zScore && !s.normRange && !s.maximize
    requires i < |fitness|
    ensures s.wDecay > 0.0 ==> Apply(s, pop, fitness, sqrt)[i] == fitness[i] + s.wDecay * L2Norm(pop[i])
    ensures s.wDecay <= 0.0 ==> Apply(s, pop, fitness, sqrt)[i] == fitness[i]
  {
  }

  /** The transform sees the penalised fitness: with centered ranks on, the
      ranks order members by fitness plus penalty, and the outputs stay in
      `[-0.5, 0.5]`. */
  lemma ApplyRanksPenalisedFitness(s: Shaper, pop: seq<Vector>, fitness: seq<real>, sqrt: real -> real, i: nat, j: nat)
    requires CanApply(s, pop, fitness, sqrt) && AtMostOneTransform(s)
    requires s.centeredRank && !s.maximize && s.wDecay > 0.0
    requires |fitness| >= 2 && i < |fitness| && j < |fitness|
    ensures var p := AddWeightDecay(fitness, pop, s.wDecay);
            Apply(s, pop, fitness, sqrt)[i] < Apply(s, pop, fitness, sqrt)[j] <==> Before(Lift(p), i, j)
    ensures -0.5 <= Apply(s, pop, fitness, sqrt)[i] <= 0.5
  {
    var p := AddWeightDecay(fitness, pop, s.wDecay);
    assert Apply(s, pop, fitness, sqrt) == CenteredRank(p);
    CenteredRankOrder(p, i, j);
    CenteredRankBounds(p, i);
  }

  /** Maximising with centered ranks gives `-0.5` to the first member with the
      highest raw fitness. */
  lemma ApplyMaximizeRanksHighestFirst(s: Shaper, pop: seq<Vector>, fitness: seq<real>, sqrt: real -> real, i: nat)
    requires CanApply(s, pop, fitness, sqrt) && AtMostOneTransform(s)
    requires s.centeredRank && s.maximize && s.wDecay <= 0.0
    requires |fitness| >= 2 && i < |fitness|
    ensures Apply(s, pop, fitness, sqrt)[i] == -0.5 <==>
      (forall j :: 0 <= j < |fitness| ==> fitness[j] <= fitness[i]) &&
      (forall j :: 0 <= j < i ==> fitness[j] < fitness[i])
  {
    var g := Linalg.Scale(-1.0, fitness);
    assert Apply(s, pop, fitness, sqrt) == CenteredRank(g);
    CenteredRankLowest(g, i);
    NegatedArgmin(fitness, i);
  }

  /** The first minimum of the negated fitness is the first maximum. */
  lemma NegatedArgmin(f: seq<real>, i: nat)
    requires i < |f|
    ensures IsFirstArgmin(Lift(Linalg.Scale(-1.0, f)), i) <==>
      (forall j :: 0 <= j < |f| ==> f[j] <= f[i]) && (forall j :: 0 <= j < i ==> f[j] < f[i])
  {
    var g := Lift(Linalg.Scale(-1.0, f));
    assert forall j :: 0 <= j < |f| ==> (Le(g[i], g[j]) <==> f[j] <= f[i]);
    assert forall j :: 0 <= j < |f| ==> (Lt(g[i], g[j]) <==> f[j] < f[i]);
  }
}

=== FILE: les_tools.dfy ===
/** Building blocks of the learned evolution strategy: the progress-time
    embedding, the multi-timescale evolution path, the fitness feature matrix
    and the normalised distance to the best fitness
    (evosax/learned_evolution/les_tools.py). */
module LesTools {
  import opened Num
  import opened Sorting
  import opened Fitness
  import Linalg

  // ---- Time embedding -----------------------------------------------------

  /** The fixed bank of timescales of `tanh_timestamp`. */
  const Timescales: seq<real> :=
    [1.0, 3.0, 10.0, 30.0, 50.0, 100.0, 250.0, 500.0, 750.0, 1000.0, 1250.0, 1500.0, 2000.0]

  /** `tanh_timestamp`: one feature `tanh(x / timescale - 1)` per timescale,
      in the order of `Timescales`. */
  function TanhTimestamp(x: real, tanh: real -> real): (r: seq<real>)
    ensures |r| == 13
    ensures forall k :: 0 <= k < 13 ==> r[k] == tanh(x / Timescales[k] - 1.0)
  {
    seq(|Timescales|, k requires 0 <= k < |Timescales| => tanh(x / Timescales[k] - 1.0))
  }

  ghost predicate NonDecreasing(g: real -> real) {
    forall a, b :: a <= b ==> g(a) <= g(b)
  }

  /** For a non-negative step count and a monotone `tanh`, longer timescales
      never give a larger feature: the embedding falls along the bank. */
  lemma TimestampFallsAlongTimescales(x: real, tanh: real -> real, k: nat, l: nat)
    requires NonDecreasing(tanh)
    requires x >= 0.0 && k <= l < 13
    ensures TanhTimestamp(x, tanh)[l] <= TanhTimestamp(x, tanh)[k]
  {
    assert 0.0 < Timescales[k] <= Timescales[l];
    DivByLarger(x, Timescales[k], Timescales[l]);
  }

  lemma DivByLarger(x: real, a: real, b: real)
    requires x >= 0.0 && 0.0 < a <= b
    ensures x / b <= x / a
  {
    var p, q := x / a, x / b;
    assert p * a == x && q * b == x;
    assert p >= 0.0;
    assert p * a <= p * b;
    assert q * b <= p * b;
  }

  // ---- Evolution path -----------------------------------------------------

  /** `EvolutionPath`: `timescales` holds one EMA rate per column. */
  datatype EvolutionPath = EvolutionPath(numDims: nat, timescales: seq<real>)

  /** `EvolutionPath.init`: a `numDims x |timescales|` array of zeros. */
  function PathInit(ep: EvolutionPath): (p: seq<seq<real>>)
    ensures IsMatrix(p, ep.numDims, |ep.timescales|)
    ensures forall d, j :: 0 <= d < ep.numDims && 0 <= j < |ep.timescales| ==> p[d][j] == 0.0
  {
    seq(ep.numDims, d requires 0 <= d < ep.numDims => seq(|ep.timescales|, j => 0.0))
  }

  /** `EvolutionPath.update`: column `j` moves the fraction `lambda_j` of the
      way from its old value towards `diff`. */
  function PathUpdate(ep: EvolutionPath, paths: seq<seq<real>>, diff: Vector): (r: seq<seq<real>>)
    requires IsMatrix(paths, ep.numDims, |ep.timescales|) && |diff| == ep.numDims
    ensures IsMatrix(r, ep.numDims, |ep.timescales|)
    ensures forall d, j :: 0 <= d < ep.numDims && 0 <= j < |ep.timescales| ==>
      r[d][j] - paths[d][j] == ep.timescales[j] * (diff[d] - paths[d][j])
  {
    seq(ep.numDims, d requires 0 <= d < ep.numDims =>
      seq(|ep.timescales|, j requires 0 <= j < |ep.timescales| =>
        (1.0 - ep.timescales[j]) * paths[d][j] + ep.timescales[j] * diff[d]))
  }

  /** With a rate in `[0, 1]`, every new entry lies between the old entry and
      the signal. */
  lemma PathUpdateBetween(ep: EvolutionPath, paths: seq<seq<real>>, diff: Vector, d: nat, j: nat)
    requires IsMatrix(paths, ep.numDims, |ep.timescales|) && |diff| == ep.numDims
    requires d < ep.numDims && j < |ep.timescales|
    requires 0.0 <= ep.timescales[j] <= 1.0
    ensures var v := PathUpdate(ep, paths, diff)[d][j];
            Min(paths[d][j], diff[d]) <= v <= Max(paths[d][j], diff[d])
  {
    EmaBetween(paths[d][j], diff[d], ep.timescales[j]);
  }

  lemma EmaBetween(p: real, g: real, lam: real)
    requires 0.0 <= lam <= 1.0
    ensures Min(p, g) <= (1.0 - lam) * p + lam * g <= Max(p, g)
  {
    var v := (1.0 - lam) * p + lam * g;
    assert v == p + lam * (g - p);
    if g >= p {
      ScaleUnit(g - p, lam);
    } else {
      ScaleUnit(p - g, lam);
      assert v == p - lam * (p - g);
    }
  }

  /** A zero rate leaves its column alone; a unit rate overwrites it with the
      signal. */
  lemma PathUpdateExtremes(ep: EvolutionPath, paths: seq<seq<real>>, diff: Vector, j: nat)
    requires IsMatrix(paths, ep.numDims, |ep.timescales|) && |diff| == ep.numDims
    requires j < |ep.timescales|
    ensures ep.timescales[j] == 0.0 ==>
      forall d :: 0 <= d < ep.numDims ==> PathUpdate(ep, paths, diff)[d][j] == paths[d][j]
    ensures ep.timescales[j] == 1.0 ==>
      forall d :: 0 <= d < ep.numDims ==> PathUpdate(ep, paths, diff)[d][j] == diff[d]
  {
  }

  /** Starting from `init`, a constant signal is approached geometrically:
      after one update, entry `(d, j)` is `lambda_j * diff[d]`. */
  lemma PathFirstUpdate(ep: EvolutionPath, diff: Vector, d: nat, j: nat)
    requires |diff| == ep.numDims && d < ep.numDims && j < |ep.timescales|
    ensures PathUpdate(ep, PathInit(ep), diff)[d][j] == ep.timescales[j] * diff[d]
  {
    var r := PathUpdate(ep, PathInit(ep), diff);
    assert r[d][j] - 0.0 == ep.timescales[j] * (diff[d] - 0.0);
  }

  // ---- Normalised distance to the best fitness ----------------------------

  /** `norm_diff_best` as evidently intended: the clipped fitness minus the
      best fitness, divided by the range of those differences (plus epsilon),
      clipped to `[-1, 1]`. An empty generation is refused: `jnp.nanmax` of a
      zero-size array raises. */
  function NormDiffBest(fitness: seq<real>, bestFitness: real): (r: seq<real>)
    requires |fitness| > 0
    ensures |r| == |fitness|
    ensures forall i :: 0 <= i < |r| ==> -1.0 <= r[i] <= 1.0
  {
    var c := ClipAll(fitness, -ClipBound, ClipBound);
    var den := DiffRange(c, bestFitness);
    seq(|c|, i requires 0 <= i < |c| => Clip((c[i] - bestFitness) / den, -1.0, 1.0))
  }

  /** The range of the differences from the best fitness, plus epsilon. */
  function DiffRange(c: seq<real>, bestFitness: real): (den: real)
    requires |c| > 0
    ensures den > 0.0
  {
    var diff := seq(|c|, i requires 0 <= i < |c| => c[i] - bestFitness);
    SeqMax(diff) - SeqMin(diff) + Eps
  }

  /** The feature keeps the sign of the difference from the best fitness, and
      the order of the (clipped) fitness values. */
  lemma NormDiffBestSignAndOrder(fitness: seq<real>, bestFitness: real, i: nat, j: nat)
    requires i < |fitness| && j < |fitness|
    ensures var c := ClipAll(fitness, -ClipBound, ClipBound);
            var r := NormDiffBest(fitness, bestFitness);
            && (r[i] < 0.0 <==> c[i] < bestFitness)
            && (r[i] == 0.0 <==> c[i] == bestFitness)
            && (c[i] <= c[j] ==> r[i] <= r[j])
  {
    var c := ClipAll(fitness, -ClipBound, ClipBound);
    var den := DiffRange(c, bestFitness);
    ClippedQuotient(c[i] - bestFitness, c[j] - bestFitness, den);
  }

  lemma ClippedQuotient(a: real, b: real, den: real)
    requires den > 0.0
    ensures Clip(a / den, -1.0, 1.0) < 0.0 <==> a < 0.0
    ensures Clip(a / den, -1.0, 1.0) == 0.0 <==> a == 0.0
    ensures a <= b ==> Clip(a / den, -1.0, 1.0) <= Clip(b / den, -1.0, 1.0)
  {
    SignOfQuotient(a, den);
    if a <= b {
      DivMonotone(b, a, den);
    }
  }

  lemma SignOfQuotient(a: real, d: real)
    requires d > 0.0
    ensures a / d < 0.0 <==> a < 0.0
    ensures a / d == 0.0 <==> a == 0.0
  {
    assert a / d * d == a;
  }

  datatype PythonError = TypeError | ValueError

  /** `norm_diff_best` as written. The denominator evaluates `jnp.nanmax` of
      the differences first, which raises a `ValueError` on an empty
      generation; otherwise `jnp.nanmin` is handed the bound method
      `diff_best.min` instead of an array and rejects it with a `TypeError`. */
  function NormDiffBestAsWritten(fitness: seq<real>, bestFitness: real): (r: Result<seq<real>, PythonError>)
    ensures r.Err?
    ensures r.error == ValueError <==> |fitness| == 0
  {
    if |fitness| == 0 then Err(ValueError) else Err(TypeError)
  }

  /** The discrepancy: on every generation the written code fails, while the
      intended one yields one feature per member in `[-1, 1]`. */
  lemma NormDiffBestAsWrittenDiffers(fitness: seq<real>, bestFitness: real)
    requires |fitness| > 0
    ensures NormDiffBestAsWritten(fitness, bestFitness) == Err(TypeError)
    ensures var r := NormDiffBest(fitness, bestFitness);
            |r| == |fitness| && forall i :: 0 <= i < |r| ==> -1.0 <= r[i] <= 1.0
  {
  }

  // ---- Fitness features ---------------------------------------------------

  datatype FeatureConfig = FeatureConfig(
    centeredRank: bool,
    zScore: bool,
    wDecay: real,
    diffBest: bool,
    normRange: bool,
    maximize: bool)

  /** The kinds of column `FitnessFeatures.apply` can emit. */
  datatype Feature = Improved | CenteredRankCol | ZScoreCol | DiffBestCol | NormRangeCol | L2Col

  /** Every column kind, in the order the columns are appended. */
  const AllFeatures: seq<Feature> := [Improved, CenteredRankCol, ZScoreCol, DiffBestCol, NormRangeCol, L2Col]

  /** Whether a column kind is switched on; `w_decay` counts when non-zero. */
  predicate Enabled(c: FeatureConfig, f: Feature) {
    match f
    case Improved => true
    case CenteredRankCol => c.centeredRank
    case ZScoreCol => c.zScore
    case DiffBestCol => c.diffBest
    case NormRangeCol => c.normRange
    case L2Col => c.wDecay != 0.0
  }

  function Filter(c: FeatureConfig, fs: seq<Feature>): (r: seq<Feature>)
    ensures |r| <= |fs|
    ensures forall k :: 0 <= k < |r| ==> Enabled(c, r[k])
  {
    if fs == [] then []
    else Opt(c, fs[0]) + Filter(c, fs[1..])
  }

  /** `[f]` when `f` is enabled, else nothing. */
  function Opt(c: FeatureConfig, f: Feature): (r: seq<Feature>)
    ensures |r| == Count(Enabled(c, f)) && forall k :: 0 <= k < |r| ==> r[k] == f
  {
    if Enabled(c, f) then [f] else []
  }

  /** Reference layout of the feature matrix: the enabled kinds, in the fixed
      order of `AllFeatures`. */
  function EnabledFeatures(c: FeatureConfig): (r: seq<Feature>)
    ensures forall k :: 0 <= k < |r| ==> Enabled(c, r[k])
  {
    Filter(c, AllFeatures)
  }

  /** The reference layout, one optional kind after another. */
  lemma LayoutUnfolds(c: FeatureConfig)
    ensures EnabledFeatures(c) ==
      [Improved] + Opt(c, CenteredRankCol) + Opt(c, ZScoreCol) + Opt(c, DiffBestCol)
      + Opt(c, NormRangeCol) + Opt(c, L2Col)
  {
    var t5: seq<Feature> := [L2Col];
    var t4 := [NormRangeCol] + t5;
    var t3 := [DiffBestCol] + t4;
    var t2 := [ZScoreCol] + t3;
    var t1 := [CenteredRankCol] + t2;
    assert AllFeatures == [Improved] + t1;
    FilterCons(c, L2Col, []);
    assert t5 == [L2Col] + [];
    FilterCons(c, NormRangeCol, t5);
    FilterCons(c, DiffBestCol, t4);
    FilterCons(c, ZScoreCol, t3);
    FilterCons(c, CenteredRankCol, t2);
    FilterCons(c, Improved, t1);
    ConcatReassociate(Opt(c, Improved), Opt(c, CenteredRankCol), Opt(c, ZScoreCol), Opt(c, DiffBestCol),
                      Opt(c, NormRangeCol), Opt(c, L2Col));
  }

  lemma FilterCons(c: FeatureConfig, f: Feature, rest: seq<Feature>)
    ensures Filter(c, [f] + rest) == Opt(c, f) + Filter(c, rest)
  {
    assert ([f] + rest)[1..] == rest;
  }

  lemma ConcatReassociate<T>(a: seq<T>, b: seq<T>, d: seq<T>, e: seq<T>, f: seq<T>, g: seq<T>)
    ensures a + (b + (d + (e + (f + (g + []))))) == a + b + d + e + f + g
  {
    assert g + [] == g;
  }

  /** What `FitnessFeatures.apply` needs of its inputs. */
  ghost predicate CanFeaturize(c: FeatureConfig, x: seq<Vector>, fitness: seq<real>, bestFitness: ExtReal,
                               sqrt: real -> real) {
    && |x| == |fitness|
    && (c.wDecay != 0.0 ==> forall i :: 0 <= i < |x| ==> |x[i]| > 0)
    && (c.centeredRank ==> |fitness| != 1)
    && (c.diffBest ==> bestFitness.Finite?)
    && (c.diffBest || c.normRange ==> |fitness| > 0)
    && SqrtNonNegative(sqrt)
  }

  /** The indicator column: 1 for members below the best fitness so far. */
  function ImprovedColumn(f: seq<real>, bestFitness: ExtReal): (col: seq<real>)
    ensures |col| == |f|
    ensures forall i :: 0 <= i < |f| ==> (col[i] == 1.0 <==> Lt(Finite(f[i]), bestFitness))
    ensures forall i :: 0 <= i < |f| ==> (col[i] == 0.0 <==> !Lt(Finite(f[i]), bestFitness))
  {
    seq(|f|, i requires 0 <= i < |f| => if Lt(Finite(f[i]), bestFitness) then 1.0 else 0.0)
  }

  function L2Column(x: seq<Vector>): (col: seq<real>)
    requires forall i :: 0 <= i < |x| ==> |x[i]| > 0
    ensures |col| == |x| && forall i :: 0 <= i < |x| ==> col[i] == L2Norm(x[i])
  {
    seq(|x|, i requires 0 <= i < |x| => L2Norm(x[i]))
  }

  /** The sign-adjusted fitness every column is computed from. */
  function Signed(c: FeatureConfig, fitness: seq<real>): (f: seq<real>)
    ensures |f| == |fitness|
  {
    if c.maximize then Linalg.Scale(-1.0, fitness) else fitness
  }

  /** The column of one kind, for inputs fit for every enabled kind. */
  function FeatureColumn(c: FeatureConfig, kind: Feature, x: seq<Vector>, fitness: seq<real>,
                         bestFitness: ExtReal, sqrt: real -> real): (col: seq<real>)
    requires CanFeaturize(c, x, fitness, bestFitness, sqrt) && Enabled(c, kind)
    ensures |col| == |fitness|
  {
    var f := Signed(c, fitness);
    match kind
    case Improved => ImprovedColumn(f, bestFitness)
    case CenteredRankCol => CenteredRank(f)
    case ZScoreCol => ZScore(f, sqrt)
    case DiffBestCol => NormDiffBest(f, bestFitness.value)
    case NormRangeCol => RangeNorm(f, -1.0, 1.0)
    case L2Col => L2Column(x)
  }

  /** `fit_out = concatenate([fit_out, column])` when the kind is switched on. */
  function AppendIf(c: FeatureConfig, cols: seq<seq<real>>, kind: Feature, x: seq<Vector>, fitness: seq<real>,
                    bestFitness: ExtReal, sqrt: real -> real): (r: seq<seq<real>>)
    requires CanFeaturize(c, x, fitness, bestFitness, sqrt)
    ensures |r| == |cols| + Count(Enabled(c, kind))
  {
    if Enabled(c, kind) then cols + [FeatureColumn(c, kind, x, fitness, bestFitness, sqrt)] else cols
  }

  /** The columns as `apply` concatenates them: the indicator, then each
      enabled transform in turn. */
  function Columns(c: FeatureConfig, x: seq<Vector>, fitness: seq<real>, bestFitness: ExtReal,
                   sqrt: real -> real): (cols: seq<seq<real>>)
    requires CanFeaturize(c, x, fitness, bestFitness, sqrt)
  {
    var cols0 := [ImprovedColumn(Signed(c, fitness), bestFitness)];
    var cols1 := AppendIf(c, cols0, CenteredRankCol, x, fitness, bestFitness, sqrt);
    var cols2 := AppendIf(c, cols1, ZScoreCol, x, fitness, bestFitness, sqrt);
    var cols3 := AppendIf(c, cols2, DiffBestCol, x, fitness, bestFitness, sqrt);
    var cols4 := AppendIf(c, cols3, NormRangeCol, x, fitness, bestFitness, sqrt);
    AppendIf(c, cols4, L2Col, x, fitness, bestFitness, sqrt)
  }

  /** The columns of a list of enabled kinds, one per kind. */
  function ColumnsOf(c: FeatureConfig, kinds: seq<Feature>, x: seq<Vector>, fitness: seq<real>,
                     bestFitness: ExtReal, sqrt: real -> real): (cols: seq<seq<real>>)
    requires CanFeaturize(c, x, fitness, bestFitness, sqrt)
    requires forall k :: 0 <= k < |kinds| ==> Enabled(c, kinds[k])
    ensures |cols| == |kinds|
    ensures forall k :: 0 <= k < |kinds| ==> cols[k] == FeatureColumn(c, kinds[k], x, fitness, bestFitness, sqrt)
  {
    seq(|kinds|, k requires 0 <= k < |kinds| => FeatureColumn(c, kinds[k], x, fitness, bestFitness, sqrt))
  }

  lemma ColumnsOfAppend(c: FeatureConfig, kinds: seq<Feature>, kind: Feature, x: seq<Vector>, fitness: seq<real>,
                        bestFitness: ExtReal, sqrt: real -> real)
    requires CanFeaturize(c, x, fitness, bestFitness, sqrt)
    requires forall k :: 0 <= k < |kinds| ==> Enabled(c, kinds[k])
    ensures forall k :: 0 <= k < |kinds + Opt(c, kind)| ==> Enabled(c, (kinds + Opt(c, kind))[k])
    ensures ColumnsOf(c, kinds + Opt(c, kind), x, fitness, bestFitness, sqrt) ==
      AppendIf(c, ColumnsOf(c, kinds, x, fitness, bestFitness, sqrt), kind, x, fitness, bestFitness, sqrt)
  {
  }

  /** `FitnessFeatures.apply`: one row per member, one column per feature in
      the layout of `EnabledFeatures`. */
  function FeaturesApply(c: FeatureConfig, x: seq<Vector>, fitness: seq<real>, bestFitness: ExtReal,
                         sqrt: real -> real): (r: seq<seq<real>>)
    requires CanFeaturize(c, x, fitness, bestFitness, sqrt)
    ensures IsMatrix(r, |fitness|, |EnabledFeatures(c)|)
    ensures forall i, k :: 0 <= i < |fitness| && 0 <= k < |EnabledFeatures(c)| ==>
      r[i][k] == FeatureColumn(c, EnabledFeatures(c)[k], x, fitness, bestFitness, sqrt)[i]
  {
    var cols := Columns(c, x, fitness, bestFitness, sqrt);
    ColumnsFollowLayout(c, x, fitness, bestFitness, sqrt);
    seq(|fitness|, i requires 0 <= i < |fitness| =>
      seq(|cols|, k requires 0 <= k < |cols| => cols[k][i]))
  }

  /** The concatenated columns are exactly the columns of the enabled kinds,
      in the fixed order. */
  lemma ColumnsFollowLayout(c: FeatureConfig, x: seq<Vector>, fitness: seq<real>, bestFitness: ExtReal,
                            sqrt: real -> real)
    requires CanFeaturize(c, x, fitness, bestFitness, sqrt)
    ensures Columns(c, x, fitness, bestFitness, sqrt) == ColumnsOf(c, EnabledFeatures(c), x, fitness, bestFitness, sqrt)
  {
    LayoutUnfolds(c);
    var l0 := [Improved];
    var l1 := l0 + Opt(c, CenteredRankCol);
    var l2 := l1 + Opt(c, ZScoreCol);
    var l3 := l2 + Opt(c, DiffBestCol);
    var l4 := l3 + Opt(c, NormRangeCol);
    assert ColumnsOf(c, l0, x, fitness, bestFitness, sqrt) == [ImprovedColumn(Signed(c, fitness), bestFitness)];
    ColumnsOfAppend(c, l0, CenteredRankCol, x, fitness, bestFitness, sqrt);
    ColumnsOfAppend(c, l1, ZScoreCol, x, fitness, bestFitness, sqrt);
    ColumnsOfAppend(c, l2, DiffBestCol, x, fitness, bestFitness, sqrt);
    ColumnsOfAppend(c, l3, NormRangeCol, x, fitness, bestFitness, sqrt);
    ColumnsOfAppend(c, l4, L2Col, x, fitness, bestFitness, sqrt);
  }

  /** The matrix has `1 +` (number of enabled options) columns. */
  lemma FeatureCount(c: FeatureConfig)
    ensures |EnabledFeatures(c)| ==
      1 + Count(c.centeredRank) + Count(c.zScore) + Count(c.diffBest) + Count(c.normRange) + Count(c.wDecay != 0.0)
  {
    LayoutUnfolds(c);
  }

  /** The first column always flags improvement over the best fitness so far,
      on the sign-adjusted fitness. */
  lemma FirstColumnIsImprovement(c: FeatureConfig, x: seq<Vector>, fitness: seq<real>, bestFitness: ExtReal,
                                 sqrt: real -> real, i: nat)
    requires CanFeaturize(c, x, fitness, bestFitness, sqrt) && i < |fitness|
    ensures |EnabledFeatures(c)| >= 1
    ensures var r := FeaturesApply(c, x, fitness, bestFitness, sqrt);
            var f := if c.maximize then -fitness[i] else fitness[i];
            && (r[i][0] == 1.0 <==> Lt(Finite(f), bestFitness))
            && (r[i][0] == 0.0 <==> !Lt(Finite(f), bestFitness))
  {
    LayoutUnfolds(c);
    assert EnabledFeatures(c)[0] == Improved;
  }

  /** The L2 column comes last and is the plain mean of squares, not scaled
      by `w_decay`. */
  lemma LastColumnIsUnscaledL2(c: FeatureConfig, x: seq<Vector>, fitness: seq<real>, bestFitness: ExtReal,
                               sqrt: real -> real, i: nat)
    requires CanFeaturize(c, x, fitness, bestFitness, sqrt) && i < |fitness|
    requires c.wDecay != 0.0
    ensures |EnabledFeatures(c)| >= 2
    ensures var r := FeaturesApply(c, x, fitness, bestFitness, sqrt);
            r[i][|EnabledFeatures(c)| - 1] == L2Norm(x[i])
  {
    LayoutUnfolds(c);
    var e := EnabledFeatures(c);
    assert e[|e| - 1] == L2Col;
  }
}

=== FILE: linalg.dfy ===
/** Dense vectors and matrices over the reals, as far as the matrix-adapting
    strategy needs them. A matrix is the sequence of its rows. */
module Linalg {
  import opened Num

  type Matrix = seq<seq<real>>

  function Dot(a: Vector, b: Vector): real
    requires |a| == |b|
  {
    if a == [] then 0.0 else Dot(a[..|a| - 1], b[..|b| - 1]) + a[|a| - 1] * b[|b| - 1]
  }

  /** The `j`-th unit vector of length `n`. */
  function Unit(n: nat, j: nat): (e: Vector)
    ensures |e| == n
    ensures forall k :: 0 <= k < n ==> e[k] == if k == j then 1.0 else 0.0
  {
    seq(n, k requires 0 <= k < n => if k == j then 1.0 else 0.0)
  }

  /** Dotting with a unit vector picks one entry, from either side. */
  lemma {:induction false} DotUnit(v: Vector, j: nat)
    requires j < |v|
    ensures Dot(v, Unit(|v|, j)) == v[j]
    ensures Dot(Unit(|v|, j), v) == v[j]
  {
    DotUnitPrefix(v, j, |v|);
    assert v[..|v|] == v && Unit(|v|, j)[..|v|] == Unit(|v|, j);
  }

  lemma {:induction false} DotUnitPrefix(v: Vector, j: nat, m: nat)
    requires j < |v| && m <= |v|
    ensures Dot(v[..m], Unit(|v|, j)[..m]) == if j < m then v[j] else 0.0
    ensures Dot(Unit(|v|, j)[..m], v[..m]) == if j < m then v[j] else 0.0
  {
    if m > 0 {
      var e := Unit(|v|, j);
      DotUnitPrefix(v, j, m - 1);
      assert v[..m][..m - 1] == v[..m - 1];
      assert e[..m][..m - 1] == e[..m - 1];
    }
  }

  /** Scaling one side of a dot product scales the result. */
  lemma {:induction false} DotScale(c: real, a: Vector, b: Vector)
    requires |a| == |b|
    ensures Dot(Scale(c, a), b) == c * Dot(a, b)
  {
    if a != [] {
      var n := |a| - 1;
      var sa := Scale(c, a);
      var sp := Scale(c, a[..n]);
      assert forall k :: 0 <= k < n ==> sa[..n][k] == sp[k];
      assert sa[..n] == sp;
      DotScale(c, a[..n], b[..n]);
    }
  }

  function Scale(c: real, v: Vector): (r: Vector)
    ensures |r| == |v| && forall k :: 0 <= k < |v| ==> r[k] == c * v[k]
  {
    seq(|v|, k requires 0 <= k < |v| => c * v[k])
  }

  function Sub(a: Vector, b: Vector): (r: Vector)
    requires |a| == |b|
    ensures |r| == |a| && forall k :: 0 <= k < |a| ==> r[k] == a[k] - b[k]
  {
    seq(|a|, k requires 0 <= k < |a| => a[k] - b[k])
  }

  /** A dot product splits over concatenated halves. */
  lemma {:induction false} DotAppend(a1: Vector, a2: Vector, b1: Vector, b2: Vector)
    requires |a1| == |b1| && |a2| == |b2|
    ensures Dot(a1 + a2, b1 + b2) == Dot(a1, b1) + Dot(a2, b2)
  {
    if a2 == [] {
      assert a1 + a2 == a1 && b1 + b2 == b1;
    } else {
      var n := |a2| - 1;
      assert (a1 + a2)[..|a1 + a2| - 1] == a1 + a2[..n];
      assert (b1 + b2)[..|b1 + b2| - 1] == b1 + b2[..n];
      DotAppend(a1, a2[..n], b1, b2[..n]);
    }
  }

  /** Dotting one vector with two others and subtracting is dotting with the
      difference. */
  lemma {:induction false} DotSub(a: Vector, b: Vector, c: Vector)
    requires |a| == |b| == |c|
    ensures Dot(a, b) - Dot(a, c) == Dot(a, Sub(b, c))
  {
    if a != [] {
      var n := |a| - 1;
      assert Sub(b, c)[..n] == Sub(b[..n], c[..n]);
      DotSub(a[..n], b[..n], c[..n]);
    }
  }

  /** `jnp.eye(n)`. */
  function Identity(n: nat): (m: Matrix)
    ensures IsMatrix(m, n, n)
    ensures forall i :: 0 <= i < n ==> m[i] == Unit(n, i)
  {
    seq(n, i requires 0 <= i < n => Unit(n, i))
  }

  predicate IsSquare(m: Matrix, n: nat) { IsMatrix(m, n, n) }

  predicate Symmetric(m: Matrix)
    requires IsSquare(m, |m|)
  {
    forall i, j :: 0 <= i < |m| && 0 <= j < |m| ==> m[i][j] == m[j][i]
  }

  function Column(m: Matrix, cols: nat, j: nat): (c: Vector)
    requires IsMatrix(m, |m|, cols) && j < cols
    ensures |c| == |m| && forall i :: 0 <= i < |m| ==> c[i] == m[i][j]
  {
    seq(|m|, i requires 0 <= i < |m| => m[i][j])
  }

  /** `a @ b` for an `r x k` matrix `a` and a `k x cols` matrix `b`. */
  function MatMul(a: Matrix, b: Matrix, cols: nat): (c: Matrix)
    requires forall i :: 0 <= i < |a| ==> |a[i]| == |b|
    requires IsMatrix(b, |b|, cols)
    ensures IsMatrix(c, |a|, cols)
    ensures forall i, j :: 0 <= i < |a| && 0 <= j < cols ==> c[i][j] == Dot(a[i], Column(b, cols, j))
  {
    seq(|a|, i requires 0 <= i < |a| =>
      seq(cols, j requires 0 <= j < cols => Dot(a[i], Column(b, cols, j))))
  }

  /** Right-multiplying by the identity changes nothing. */
  lemma MatMulIdentity(a: Matrix, n: nat)
    requires IsMatrix(a, |a|, n)
    ensures MatMul(a, Identity(n), n) == a
  {
    var c := MatMul(a, Identity(n), n);
    forall i | 0 <= i < |a| ensures c[i] == a[i] {
      forall j | 0 <= j < n ensures c[i][j] == a[i][j] {
        assert Column(Identity(n), n, j) == Unit(n, j);
        DotUnit(a[i], j);
      }
    }
  }

  /** `v @ m.T`: entry `j` is the dot product of `v` with row `j` of `m`. */
  function TimesTranspose(v: Vector, m: Matrix): (r: Vector)
    requires forall j :: 0 <= j < |m| ==> |m[j]| == |v|
    ensures |r| == |m| && forall j :: 0 <= j < |m| ==> r[j] == Dot(v, m[j])
  {
    seq(|m|, j requires 0 <= j < |m| => Dot(v, m[j]))
  }

  /** `m v`: entry `j` is row `j` of `m` dotted with `v`. */
  function MatVec(m: Matrix, v: Vector): (r: Vector)
    requires forall j :: 0 <= j < |m| ==> |m[j]| == |v|
    ensures |r| == |m|
  {
    seq(|m|, j requires 0 <= j < |m| => Dot(m[j], v))
  }

  lemma {:induction false} DotCommutes(a: Vector, b: Vector)
    requires |a| == |b|
    ensures Dot(a, b) == Dot(b, a)
  {
    if a != [] {
      DotCommutes(a[..|a| - 1], b[..|b| - 1]);
    }
  }

  /** `(s v) @ m.T == s (m v)`. */
  lemma ScaledTimesTranspose(s: real, v: Vector, m: Matrix)
    requires forall j :: 0 <= j < |m| ==> |m[j]| == |v|
    ensures TimesTranspose(Scale(s, v), m) == Scale(s, MatVec(m, v))
  {
    forall j | 0 <= j < |m|
      ensures TimesTranspose(Scale(s, v), m)[j] == Scale(s, MatVec(m, v))[j]
    {
      DotScale(s, v, m[j]);
      DotCommutes(v, m[j]);
    }
  }

  /** The identity maps every vector to itself. */
  lemma MatVecIdentity(v: Vector)
    ensures MatVec(Identity(|v|), v) == v
  {
    forall j | 0 <= j < |v| ensures MatVec(Identity(|v|), v)[j] == v[j] {
      DotUnit(v, j);
    }
  }

  /** `jnp.outer(p, q)`. */
  function Outer(p: Vector, q: Vector): (m: Matrix)
    ensures IsMatrix(m, |p|, |q|)
    ensures forall i, j :: 0 <= i < |p| && 0 <= j < |q| ==> m[i][j] == p[i] * q[j]
  {
    seq(|p|, i requires 0 <= i < |p| => seq(|q|, j requires 0 <= j < |q| => p[i] * q[j]))
  }

  /** The weighted sum of the rows' outer products, `sum_i w_i z_i z_i^T`. */
  function WeightedOuterSum(w: seq<real>, z: seq<Vector>, n: nat): (m: Matrix)
    requires |w| == |z| && IsMatrix(z, |z|, n)
    ensures IsMatrix(m, n, n)
  {
    seq(n, j requires 0 <= j < n =>
      seq(n, k requires 0 <= k < n =>
        Sum(seq(|z|, i requires 0 <= i < |z| => w[i] * z[i][j] * z[i][k]))))
  }

  lemma WeightedOuterSumSymmetric(w: seq<real>, z: seq<Vector>, n: nat)
    requires |w| == |z| && IsMatrix(z, |z|, n)
    ensures Symmetric(WeightedOuterSum(w, z, n))
  {
    var m := WeightedOuterSum(w, z, n);
    forall j, k | 0 <= j < n && 0 <= k < n ensures m[j][k] == m[k][j] {
      var a := seq(|z|, i requires 0 <= i < |z| => w[i] * z[i][j] * z[i][k]);
      var b := seq(|z|, i requires 0 <= i < |z| => w[i] * z[i][k] * z[i][j]);
      assert a == b;
    }
  }

  /** `sum_i w_i z_i`, i.e. `jnp.dot(weights, z)`. */
  function WeightedRowSum(w: seq<real>, z: seq<Vector>, n: nat): (v: Vector)
    requires |w| == |z| && IsMatrix(z, |z|, n)
    ensures |v| == n
    ensures forall k :: 0 <= k < n ==> v[k] == Dot(w, Column(z, n, k))
  {
    seq(n, k requires 0 <= k < n => Dot(w, Column(z, n, k)))
  }
}

=== FILE: ma_es.dfy ===
/** Matrix Adaptation Evolution Strategy: candidates are the mean plus a
    scaled linear transform `M` of Gaussian noise, and `M` is adapted by a
    multiplicative update instead of a covariance matrix
    (evosax/strategies/ma_es.py). The CMA-ES updates it inherits for the
    mean, the evolution path and the step size are parameters of the model. */
module MaES {
  import opened Num
  import opened Sorting
  import opened Linalg

  /** The parameters the matrix update reads; the rest of the inherited
      CMA-ES parameters are captured by the update functions. */
  datatype Params = Params(stdInit: real, c1: real, cMu: real, weights: seq<real>)

  /** `mean` is `None` while it is the NaN-filled placeholder of `_init`. The
      last three fields belong to the generic strategy wrapper. */
  datatype State = State(
    mean: Option<Vector>,
    std: real,
    pStd: Vector,
    M: Matrix,
    z: seq<Vector>,
    bestSolution: Option<Vector>,
    bestFitness: ExtReal,
    generationCounter: nat)

  /** The shapes every state of a run keeps. */
  ghost predicate Shaped(state: State, populationSize: nat, numDims: nat) {
    && (state.mean.Some? ==> |state.mean.value| == numDims)
    && |state.pStd| == numDims
    && IsSquare(state.M, numDims)
    && IsMatrix(state.z, populationSize, numDims)
  }

  /** `_init`: identity transform, zero path, zero noise, no mean yet. */
  function Init(populationSize: nat, numDims: nat, params: Params): (s: State)
    ensures Shaped(s, populationSize, numDims)
    ensures s.mean == None && s.std == params.stdInit && s.M == Identity(numDims)
    ensures forall d :: 0 <= d < numDims ==> s.pStd[d] == 0.0
    ensures forall i, d :: 0 <= i < populationSize && 0 <= d < numDims ==> s.z[i][d] == 0.0
    ensures s.bestSolution == None && s.bestFitness == PosInf && s.generationCounter == 0
  {
    State(None, params.stdInit, seq(numDims, _ => 0.0), Identity(numDims),
          seq(populationSize, _ => seq(numDims, _ => 0.0)), None, PosInf, 0)
  }

  /** One candidate: `mean + (std * z_i) @ M.T`. */
  function Candidate(mean: Vector, std: real, zi: Vector, M: Matrix): (x: Vector)
    requires IsSquare(M, |mean|) && |zi| == |mean|
    ensures |x| == |mean|
  {
    var y := TimesTranspose(Scale(std, zi), M);
    seq(|mean|, d requires 0 <= d < |mean| => mean[d] + y[d])
  }

  /** `_ask`: transform the Gaussian rows `z` and remember them for `_tell`.
      A mean that is still NaN gives NaN candidates. */
  function Ask(state: State, populationSize: nat, numDims: nat, z: seq<Vector>): (r: (Option<seq<Vector>>, State))
    requires Shaped(state, populationSize, numDims) && IsMatrix(z, populationSize, numDims)
    ensures r.1 == state.(z := z) && Shaped(r.1, populationSize, numDims)
    ensures r.0.Some? <==> state.mean.Some?
    ensures r.0.Some? ==> IsMatrix(r.0.value, populationSize, numDims)
    ensures r.0.Some? ==> forall i :: 0 <= i < populationSize ==>
      r.0.value[i] == Candidate(state.mean.value, state.std, z[i], state.M)
  {
    match state.mean
    case None => (None, state.(z := z))
    case Some(mean) =>
      (Some(seq(populationSize, i requires 0 <= i < populationSize => Candidate(mean, state.std, z[i], state.M))),
       state.(z := z))
  }

  /** Each candidate is the mean displaced by `std` times the image `M z_i`
      of its noise row. */
  lemma CandidateIsTransformedNoise(mean: Vector, std: real, zi: Vector, M: Matrix, d: nat)
    requires IsSquare(M, |mean|) && |zi| == |mean| && d < |mean|
    ensures Candidate(mean, std, zi, M)[d] == mean[d] + std * MatVec(M, zi)[d]
  {
    ScaledTimesTranspose(std, zi, M);
  }

  /** With the identity transform (as after `_init`) sampling is isotropic:
      each candidate is the mean plus `std` times its noise row. */
  lemma IdentityTransformIsIsotropic(mean: Vector, std: real, zi: Vector)
    requires |zi| == |mean|
    ensures Candidate(mean, std, zi, Identity(|mean|)) == Perturb(mean, std, zi)
  {
    var x := Candidate(mean, std, zi, Identity(|mean|));
    forall d | 0 <= d < |mean| ensures x[d] == mean[d] + std * zi[d] {
      CandidateIsTransformedNoise(mean, std, zi, Identity(|mean|), d);
      MatVecIdentity(zi);
    }
  }

  /** The factor of Eq. (M11): `I + c1/2 (p p^T - I) + cMu/2 (sum_i w_i z_i z_i^T - I)`. */
  function UpdateFactor(pStd: Vector, z: seq<Vector>, params: Params, numDims: nat): (f: Matrix)
    requires |pStd| == numDims && |params.weights| == |z| && IsMatrix(z, |z|, numDims)
    ensures IsSquare(f, numDims)
  {
    var eye := Identity(numDims);
    var pp := Outer(pStd, pStd);
    var zz := WeightedOuterSum(params.weights, z, numDims);
    seq(numDims, j requires 0 <= j < numDims =>
      seq(numDims, k requires 0 <= k < numDims =>
        eye[j][k] + params.c1 / 2.0 * (pp[j][k] - eye[j][k]) + params.cMu / 2.0 * (zz[j][k] - eye[j][k])))
  }

  /** `update_M`: right-multiply `M` by the update factor. */
  function UpdateM(M: Matrix, pStd: Vector, z: seq<Vector>, params: Params, numDims: nat): (r: Matrix)
    requires IsSquare(M, numDims) && |pStd| == numDims && |params.weights| == |z| && IsMatrix(z, |z|, numDims)
    ensures IsSquare(r, numDims)
  {
    MatMul(M, UpdateFactor(pStd, z, params, numDims), numDims)
  }

  /** The update factor is symmetric, as a sum of symmetric matrices. */
  lemma UpdateFactorSymmetric(pStd: Vector, z: seq<Vector>, params: Params, numDims: nat)
    requires |pStd| == numDims && |params.weights| == |z| && IsMatrix(z, |z|, numDims)
    ensures Symmetric(UpdateFactor(pStd, z, params, numDims))
  {
    var f := UpdateFactor(pStd, z, params, numDims);
    var eye := Identity(numDims);
    var pp := Outer(pStd, pStd);
    var zz := WeightedOuterSum(params.weights, z, numDims);
    WeightedOuterSumSymmetric(params.weights, z, numDims);
    forall j, k | 0 <= j < numDims && 0 <= k < numDims ensures f[j][k] == f[k][j] {
      assert eye[j][k] == eye[k][j];
      assert pp[j][k] == pp[k][j];
      assert zz[j][k] == zz[k][j];
    }
  }

  /** `M` stays put when neither statistic pulls it away from isotropy: each
      of the rank-one and rank-mu terms either has a zero rate or already
      equals the identity. */
  lemma UpdateMStationary(M: Matrix, pStd: Vector, z: seq<Vector>, params: Params, numDims: nat)
    requires IsSquare(M, numDims) && |pStd| == numDims && |params.weights| == |z| && IsMatrix(z, |z|, numDims)
    requires params.c1 == 0.0 || Outer(pStd, pStd) == Identity(numDims)
    requires params.cMu == 0.0 || WeightedOuterSum(params.weights, z, numDims) == Identity(numDims)
    ensures UpdateM(M, pStd, z, params, numDims) == M
  {
    var f := UpdateFactor(pStd, z, params, numDims);
    assert f == Identity(numDims) by {
      forall j | 0 <= j < numDims ensures f[j] == Identity(numDims)[j] {
      }
    }
    MatMulIdentity(M, numDims);
  }

  /** `update_p_std` leaves the path's length alone. */
  ghost predicate KeepsLength(updatePStd: (Vector, Vector) -> Vector) {
    forall p: Vector, v: Vector :: |p| == |v| ==> |updatePStd(p, v)| == |p|
  }

  /** `_tell`: sort the remembered noise by fitness, then update the mean, the
      step-size path, the step size and `M` from the sorted noise. */
  function Tell(state: State, params: Params, populationSize: nat, numDims: nat,
                population: seq<Vector>, fitness: seq<real>,
                updateMean: (seq<Vector>, seq<real>, Option<Vector>, real) -> Vector,
                updatePStd: (Vector, Vector) -> Vector,
                norm: Vector -> real,
                updateStd: (real, real) -> real): (s: State)
    requires Shaped(state, populationSize, numDims)
    requires |fitness| == populationSize && |params.weights| == populationSize
    requires KeepsLength(updatePStd)
    ensures s.z == Gather(state.z, Argsort(Lift(fitness)))
    ensures s.mean == Some(updateMean(population, fitness, state.mean, state.std))
    ensures s.pStd == updatePStd(state.pStd, WeightedRowSum(params.weights, s.z, numDims))
    ensures s.std == updateStd(state.std, norm(s.pStd))
    ensures IsMatrix(s.z, populationSize, numDims) && |s.pStd| == numDims
    ensures s.M == UpdateM(state.M, s.pStd, s.z, params, numDims)
    ensures s.bestSolution == state.bestSolution && s.bestFitness == state.bestFitness
    ensures s.generationCounter == state.generationCounter
  {
    var zs := Gather(state.z, Argsort(Lift(fitness)));
    var pStd := updatePStd(state.pStd, WeightedRowSum(params.weights, zs, numDims));
    state.(
      z := zs,
      mean := Some(updateMean(population, fitness, state.mean, state.std)),
      pStd := pStd,
      std := updateStd(state.std, norm(pStd)),
      M := UpdateM(state.M, pStd, zs, params, numDims))
  }

  /** `_tell` keeps the state's shapes, so `_ask` can follow it. */
  lemma TellKeepsShape(state: State, params: Params, populationSize: nat, numDims: nat,
                       population: seq<Vector>, fitness: seq<real>,
                       updateMean: (seq<Vector>, seq<real>, Option<Vector>, real) -> Vector,
                       updatePStd: (Vector, Vector) -> Vector,
                       norm: Vector -> real,
                       updateStd: (real, real) -> real)
    requires Shaped(state, populationSize, numDims)
    requires |fitness| == populationSize && |params.weights| == populationSize
    requires KeepsLength(updatePStd)
    requires forall p, f, m, s :: |updateMean(p, f, m, s)| == numDims
    ensures Shaped(Tell(state, params, populationSize, numDims, population, fitness,
                        updateMean, updatePStd, norm, updateStd), populationSize, numDims)
  {
  }

  /** The stored noise is reordered, never altered: the same rows, best
      fitness first, ties kept in their sampled order. */
  lemma TellSortsNoise(state: State, params: Params, populationSize: nat, numDims: nat,
                       population: seq<Vector>, fitness: seq<real>,
                       updateMean: (seq<Vector>, seq<real>, Option<Vector>, real) -> Vector,
                       updatePStd: (Vector, Vector) -> Vector,
                       norm: Vector -> real,
                       updateStd: (real, real) -> real,
                       a: nat, b: nat)
    requires Shaped(state, populationSize, numDims)
    requires |fitness| == populationSize && |params.weights| == populationSize
    requires KeepsLength(updatePStd)
    requires a < b < populationSize
    ensures var s := Tell(state, params, populationSize, numDims, population, fitness,
                          updateMean, updatePStd, norm, updateStd);
            && multiset(s.z) == multiset(state.z)
            && exists i: nat, j: nat ::
                 && i < populationSize && j < populationSize
                 && s.z[a] == state.z[i] && s.z[b] == state.z[j]
                 && fitness[i] <= fitness[j]
                 && (fitness[i] == fitness[j] ==> i < j)
  {
    var f := Lift(fitness);
    var idx := Argsort(f);
    GatherPermutation(state.z, idx);
    ArgsortAscending(f, a, b);
    assert Le(f[idx[a]], f[idx[b]]);
  }
}

=== FILE: num.dfy ===
/** Scalars, vectors and reductions shared by every strategy: the real-number
    stand-ins for the array arithmetic of the library. */
module Num {

  /** A fitness value that may be the `+inf` sentinel used before anything
      has been evaluated. */
  datatype ExtReal = Finite(value: real) | PosInf

  /** `None` stands for an array that the library fills with NaN as a
      placeholder until real values arrive. */
  datatype Option<T> = None | Some(value: T)

  datatype Result<T, E> = Ok(value: T) | Err(error: E)

  type Vector = seq<real>

  /** The small constant added to denominators (`1e-10`). */
  const Eps: real := 0.0000000001

  /** The clipping bound applied before range-based transforms (`1e10`). */
  const ClipBound: real := 10000000000.0

  predicate Lt(a: ExtReal, b: ExtReal) {
    match (a, b)
    case (Finite(x), Finite(y)) => x < y
    case (Finite(_), PosInf) => true
    case (PosInf, _) => false
  }

  predicate Le(a: ExtReal, b: ExtReal) {
    a == b || Lt(a, b)
  }

  function Lift(s: seq<real>): (r: seq<ExtReal>)
    ensures |r| == |s|
    ensures forall i :: 0 <= i < |s| ==> r[i] == Finite(s[i])
  {
    seq(|s|, i requires 0 <= i < |s| => Finite(s[i]))
  }

  function Max(a: real, b: real): real { if a >= b then a else b }

  function Min(a: real, b: real): real { if a <= b then a else b }

  /** `jnp.clip(x, lo, hi)`. */
  function Clip(x: real, lo: real, hi: real): real {
    Min(Max(x, lo), hi)
  }

  function ClipAll(s: seq<real>, lo: real, hi: real): (r: seq<real>)
    ensures |r| == |s|
    ensures forall i :: 0 <= i < |s| ==> r[i] == Clip(s[i], lo, hi)
  {
    seq(|s|, i requires 0 <= i < |s| => Clip(s[i], lo, hi))
  }

  /** Geometric decay floored at a limit: `jnp.clip(x * decay, min=limit)`. */
  function DecayFloored(x: real, decay: real, limit: real): (r: real)
    ensures r >= limit
    ensures r == x * decay || r == limit
    ensures x * decay >= limit ==> r == x * decay
  {
    Max(x * decay, limit)
  }

  /** Decay never lets the value grow once it sits at or above the floor. */
  lemma DecayFlooredNeverGrows(x: real, decay: real, limit: real)
    requires 0.0 <= x && decay <= 1.0 && limit <= x
    ensures limit <= DecayFloored(x, decay, limit) <= x
  {
    assert x * decay <= x * 1.0;
  }

  function Sum(s: seq<real>): real {
    if s == [] then 0.0 else Sum(s[..|s| - 1]) + s[|s| - 1]
  }

  lemma {:induction false} SumAppend(a: seq<real>, b: seq<real>)
    ensures Sum(a + b) == Sum(a) + Sum(b)
  {
    if b == [] {
      assert a + b == a;
    } else {
      assert (a + b)[..|a + b| - 1] == a + b[..|b| - 1];
      SumAppend(a, b[..|b| - 1]);
    }
  }

  /** Sum of `(s[i] - m) / d` over the sequence. */
  lemma {:induction false} SumCentered(s: seq<real>, t: seq<real>, m: real, d: real)
    requires d != 0.0
    requires |t| == |s|
    requires forall i :: 0 <= i < |s| ==> t[i] == (s[i] - m) / d
    ensures Sum(t) == (Sum(s) - (|s| as real) * m) / d
  {
    if s != [] {
      var n := |s| - 1;
      SumCentered(s[..n], t[..n], m, d);
      assert t[n] == (s[n] - m) / d;
      DivAdd(Sum(s[..n]) - (n as real) * m, s[n] - m, d);
    }
  }

  lemma DivAdd(a: real, b: real, d: real)
    requires d != 0.0
    ensures a / d + b / d == (a + b) / d
  {
  }

  function Mean(s: seq<real>): real
    requires |s| > 0
  {
    Sum(s) / (|s| as real)
  }

  lemma {:induction false} SumNonNegative(s: seq<real>)
    requires forall i :: 0 <= i < |s| ==> s[i] >= 0.0
    ensures Sum(s) >= 0.0
  {
    if s != [] {
      SumNonNegative(s[..|s| - 1]);
    }
  }

  /** A non-negative width scaled by a unit fraction stays within the width. */
  lemma ScaleUnit(w: real, q: real)
    requires w >= 0.0 && 0.0 <= q <= 1.0
    ensures 0.0 <= w * q <= w
  {
    assert w * q <= w * 1.0;
  }

  function Square(x: real): (r: real)
    ensures r >= 0.0
  {
    x * x
  }

  lemma SquareStrictlyGrows(a: real, b: real)
    requires 0.0 <= a < b
    ensures Square(a) < Square(b)
  {
    var p, q := b - a, b + a;
    assert p > 0.0 && q > 0.0;
    assert p * q > 0.0;
    assert p * q == b * b - a * a;
  }

  lemma PositiveSquare(d: real)
    requires d > 0.0
    ensures Square(d) > 0.0
  {
    SquareStrictlyGrows(0.0, d);
  }

  /** Non-negative numbers with equal squares are equal. */
  lemma SquareRootUnique(a: real, b: real)
    requires a >= 0.0 && b >= 0.0 && Square(a) == Square(b)
    ensures a == b
  {
    if a < b {
      SquareStrictlyGrows(a, b);
    } else if b < a {
      SquareStrictlyGrows(b, a);
    }
  }

  lemma QuotientOfProduct(x: real, c: real, y: real)
    requires c > 0.0 && x * c == y
    ensures x == y / c
  {
    assert y / c * c == y;
    assert x == (x * c) / c;
    assert y / c == (y / c * c) / c;
  }

  lemma SquareOfQuotient(a: real, d: real)
    requires d > 0.0
    ensures Square(d) > 0.0 && Square(a / d) == Square(a) / Square(d)
  {
    PositiveSquare(d);
    var q := a / d;
    assert q * d == a;
    assert Square(q) * Square(d) == Square(a) by {
      assert (q * q) * (d * d) == (q * d) * (q * d);
    }
    QuotientOfProduct(Square(q), Square(d), Square(a));
  }

  lemma DivDiv(t: real, c: real, n: real)
    requires c > 0.0 && n > 0.0
    ensures (t / c) / n == (t / n) / c
  {
    var x := (t / n) / c;
    assert x * c == t / n;
    assert (x * c) * n == t;
    assert (x * n) * c == t;
    QuotientOfProduct(x * n, c, t);
    QuotientOfProduct(x, n, t / c);
  }

  lemma QuotientBelowOne(s: real, d: real)
    requires 0.0 <= s < d
    ensures 0.0 <= s / d < 1.0
  {
  }

  /** `jnp.min` of a non-empty sequence: a lower bound that is attained. */
  function SeqMin(s: seq<real>): (m: real)
    requires |s| > 0
    ensures forall i :: 0 <= i < |s| ==> m <= s[i]
    ensures exists i :: 0 <= i < |s| && m == s[i]
  {
    if |s| == 1 then s[0]
    else
      var m' := SeqMin(s[..|s| - 1]);
      assert forall i :: 0 <= i < |s| - 1 ==> s[..|s| - 1][i] == s[i];
      Min(m', s[|s| - 1])
  }

  /** `jnp.max` of a non-empty sequence: an upper bound that is attained. */
  function SeqMax(s: seq<real>): (m: real)
    requires |s| > 0
    ensures forall i :: 0 <= i < |s| ==> s[i] <= m
    ensures exists i :: 0 <= i < |s| && m == s[i]
  {
    if |s| == 1 then s[0]
    else
      var m' := SeqMax(s[..|s| - 1]);
      assert forall i :: 0 <= i < |s| - 1 ==> s[..|s| - 1][i] == s[i];
      Max(m', s[|s| - 1])
  }

  /** `x + s * z`, elementwise, for a scalar step size `s`. */
  function Perturb(x: Vector, s: real, z: Vector): (r: Vector)
    requires |z| == |x|
    ensures |r| == |x|
    ensures forall d :: 0 <= d < |x| ==> r[d] == x[d] + s * z[d]
  {
    seq(|x|, d requires 0 <= d < |x| => x[d] + s * z[d])
  }

  lemma PerturbZeroStep(x: Vector, z: Vector)
    requires |z| == |x|
    ensures Perturb(x, 0.0, z) == x
  {
  }

  /** A matrix given as its rows, every row of the same width. */
  predicate IsMatrix(m: seq<seq<real>>, rows: nat, cols: nat) {
    |m| == rows && forall i :: 0 <= i < |m| ==> |m[i]| == cols
  }
}

=== FILE: open_es.dfy ===
/** OpenAI-ES: isotropic-per-coordinate Gaussian search around a mean, with
    optional antithetic (mirrored) sampling, a Monte-Carlo gradient estimate
    handed to a gradient optimizer, and a decayed step size
    (evosax/strategies/open_es.py). The optimizer and the decay schedule are
    parameters of the model. */
module OpenES {
  import opened Num
  import opened Linalg

  /** The largest finite single-precision float, the default best fitness and
      clipping bound. */
  const Float32Max: real := 340282346638528859811704183484516925440.0

  /** The optimizer names the constructor accepts. */
  const OptimizerNames: seq<string> := ["sgd", "adam", "rmsprop", "clipup", "adan"]

  datatype Config = Config(
    popsize: nat,
    numDims: nat,
    useAntitheticSampling: bool,
    optName: string,
    lrateInit: real,
    lrateDecay: real,
    lrateLimit: real,
    sigmaInit: real,
    sigmaDecay: real,
    sigmaLimit: real)

  datatype ConfigError = OddPopulation | UnknownOptimizer

  /** `OpenES.__init__`: the population must be even (checked first) and the
      optimizer one of the known names. */
  function NewOpenES(popsize: nat, numDims: nat, useAntitheticSampling: bool, optName: string,
                     lrateInit: real, lrateDecay: real, lrateLimit: real,
                     sigmaInit: real, sigmaDecay: real, sigmaLimit: real): (r: Result<Config, ConfigError>)
    ensures r.Ok? <==> popsize % 2 == 0 && optName in OptimizerNames
    ensures popsize % 2 != 0 ==> r == Err(OddPopulation)
    ensures popsize % 2 == 0 && optName !in OptimizerNames ==> r == Err(UnknownOptimizer)
    ensures r.Ok? ==> r.value.popsize == popsize && r.value.numDims == numDims
                      && r.value.useAntitheticSampling == useAntitheticSampling && r.value.optName == optName
                      && r.value.lrateInit == lrateInit && r.value.lrateDecay == lrateDecay
                      && r.value.lrateLimit == lrateLimit
                      && r.value.sigmaInit == sigmaInit && r.value.sigmaDecay == sigmaDecay
                      && r.value.sigmaLimit == sigmaLimit
  {
    if popsize % 2 != 0 then Err(OddPopulation)
    else if optName !in OptimizerNames then Err(UnknownOptimizer)
    else Ok(Config(popsize, numDims, useAntitheticSampling, optName, lrateInit, lrateDecay, lrateLimit,
                   sigmaInit, sigmaDecay, sigmaLimit))
  }

  /** `EvoParams`; `P` is the optimizer's own parameter record. */
  datatype EvoParams<P> = EvoParams(
    optParams: P,
    sigmaInit: real,
    sigmaDecay: real,
    sigmaLimit: real,
    initMin: real,
    initMax: real,
    clipMin: real,
    clipMax: real)

  /** `params_strategy`: the optimizer's default parameters with the
      configured learning-rate schedule written in (`withLrates` stands for the
      optimizer record's `replace`), the configured step-size schedule, a
      zero-width initialisation range and the widest clipping range. */
  function ParamsStrategy<P>(config: Config, optDefaults: P, withLrates: (P, real, real, real) -> P): (p: EvoParams<P>)
    ensures p.optParams == withLrates(optDefaults, config.lrateInit, config.lrateDecay, config.lrateLimit)
    ensures p.sigmaInit == config.sigmaInit && p.sigmaDecay == config.sigmaDecay && p.sigmaLimit == config.sigmaLimit
    ensures p.initMin == p.initMax == 0.0
    ensures p.clipMin == -Float32Max && p.clipMax == Float32Max
  {
    var optParams := withLrates(optDefaults, config.lrateInit, config.lrateDecay, config.lrateLimit);
    EvoParams(optParams, config.sigmaInit, config.sigmaDecay, config.sigmaLimit, 0.0, 0.0, -Float32Max, Float32Max)
  }

  /** `EvoState`; `O` is the optimizer's own state record. */
  datatype EvoState<O> = EvoState(
    mean: Vector,
    sigma: Vector,
    optState: O,
    bestMember: Vector,
    bestFitness: real,
    genCounter: nat)

  /** `initialize_strategy`: the mean is a uniform draw in
      `[initMin, initMax]` per coordinate (`u` holds the unit draws), the step
      size is `sigmaInit` everywhere, the optimizer state is the optimizer's
      `initialize` applied to `params.optParams`, and the best member starts
      at the mean. */
  function InitializeStrategy<P, O>(config: Config, params: EvoParams<P>, u: Vector, initialize: P -> O): (s: EvoState<O>)
    requires |u| == config.numDims
    ensures |s.mean| == |s.sigma| == config.numDims
    ensures forall d :: 0 <= d < config.numDims ==> s.sigma[d] == params.sigmaInit
    ensures params.initMin <= params.initMax && (forall d :: 0 <= d < |u| ==> 0.0 <= u[d] <= 1.0) ==>
      forall d :: 0 <= d < config.numDims ==> params.initMin <= s.mean[d] <= params.initMax
    ensures s.bestMember == s.mean && s.optState == initialize(params.optParams)
    ensures s.bestFitness == Float32Max && s.genCounter == 0
  {
    var mean := seq(config.numDims, d requires 0 <= d < config.numDims =>
      UniformDraw(params.initMin, params.initMax, u[d]));
    EvoState(mean, seq(config.numDims, _ => params.sigmaInit), initialize(params.optParams), mean, Float32Max, 0)
  }

  /** `jax.random.uniform` mapped from the unit draw `q` onto `[lo, hi]`. */
  function UniformDraw(lo: real, hi: real, q: real): (r: real)
    ensures lo <= hi && 0.0 <= q <= 1.0 ==> lo <= r <= hi
    ensures lo == hi ==> r == lo
  {
    var w := hi - lo;
    var r := lo + w * q;
    assert lo <= hi && 0.0 <= q <= 1.0 ==> lo <= r <= hi by {
      if lo <= hi && 0.0 <= q <= 1.0 {
        ScaleUnit(w, q);
      }
    }
    r
  }

  /** With the default parameters every run starts from the origin. */
  lemma DefaultInitStartsAtOrigin<P, O>(config: Config, optDefaults: P, withLrates: (P, real, real, real) -> P,
                                        u: Vector, initialize: P -> O, d: nat)
    requires |u| == config.numDims && d < config.numDims
    ensures InitializeStrategy(config, ParamsStrategy(config, optDefaults, withLrates), u, initialize).mean[d] == 0.0
  {
  }

  /** The noise of one generation: the drawn rows, followed by their mirror
      images when sampling is antithetic. */
  function SampledNoise(config: Config, draws: seq<Vector>): (z: seq<Vector>)
    requires IsMatrix(draws, |draws|, config.numDims)
    ensures IsMatrix(z, if config.useAntitheticSampling then 2 * |draws| else |draws|, config.numDims)
    ensures config.useAntitheticSampling ==> z == Mirrored(draws, config.numDims)
    ensures !config.useAntitheticSampling ==> z == draws
  {
    if config.useAntitheticSampling then Mirrored(draws, config.numDims) else draws
  }

  /** `concatenate([z_plus, -1.0 * z_plus])`. */
  function Mirrored(draws: seq<Vector>, n: nat): (z: seq<Vector>)
    requires IsMatrix(draws, |draws|, n)
    ensures IsMatrix(z, 2 * |draws|, n)
    ensures forall i :: 0 <= i < |draws| ==> z[i] == draws[i]
    ensures forall i :: |draws| <= i < 2 * |draws| ==> z[i] == Scale(-1.0, draws[i - |draws|])
  {
    draws + seq(|draws|, i requires 0 <= i < |draws| => Scale(-1.0, draws[i]))
  }

  /** How many Gaussian rows `ask_strategy` draws. */
  function NumDraws(config: Config): nat {
    if config.useAntitheticSampling then config.popsize / 2 else config.popsize
  }

  /** `mean + sigma * z`, row by row. */
  function Candidates(mean: Vector, sigma: Vector, z: seq<Vector>): (x: seq<Vector>)
    requires |sigma| == |mean| && IsMatrix(z, |z|, |mean|)
    ensures IsMatrix(x, |z|, |mean|)
    ensures forall i, d :: 0 <= i < |z| && 0 <= d < |mean| ==> x[i][d] - mean[d] == sigma[d] * z[i][d]
  {
    seq(|z|, i requires 0 <= i < |z| =>
      seq(|mean|, d requires 0 <= d < |mean| => mean[d] + sigma[d] * z[i][d]))
  }

  ghost predicate StateFits<O>(config: Config, state: EvoState<O>) {
    |state.mean| == |state.sigma| == config.numDims
  }

  /** `ask_strategy`: `popsize` candidates around the mean; the state is
      returned unchanged. */
  function AskStrategy<O>(config: Config, state: EvoState<O>, draws: seq<Vector>): (r: (seq<Vector>, EvoState<O>))
    requires config.popsize % 2 == 0 && StateFits(config, state)
    requires IsMatrix(draws, NumDraws(config), config.numDims)
    ensures r.1 == state
    ensures IsMatrix(r.0, config.popsize, config.numDims)
    ensures r.0 == Candidates(state.mean, state.sigma, SampledNoise(config, draws))
  {
    (Candidates(state.mean, state.sigma, SampledNoise(config, draws)), state)
  }

  /** Antithetic candidates come in pairs mirrored through the mean. */
  lemma AskMirrorsThroughMean<O>(config: Config, state: EvoState<O>, draws: seq<Vector>, i: nat, d: nat)
    requires config.popsize % 2 == 0 && StateFits(config, state)
    requires IsMatrix(draws, NumDraws(config), config.numDims)
    requires config.useAntitheticSampling && i < config.popsize / 2 && d < config.numDims
    ensures var x := AskStrategy(config, state, draws).0;
            x[i][d] + x[i + config.popsize / 2][d] == 2.0 * state.mean[d]
  {
    var h := |draws|;
    assert h == config.popsize / 2;
    var z := Mirrored(draws, config.numDims);
    var x := Candidates(state.mean, state.sigma, z);
    assert x == AskStrategy(config, state, draws).0;
    MirroredEntries(draws, config.numDims, i, d);
    MirrorPair(state.mean[d], state.sigma[d], z[i][d], z[i + h][d], x[i][d], x[i + h][d]);
  }

  lemma MirroredEntries(draws: seq<Vector>, n: nat, i: nat, d: nat)
    requires IsMatrix(draws, |draws|, n) && i < |draws| && d < n
    ensures Mirrored(draws, n)[i + |draws|][d] == -1.0 * Mirrored(draws, n)[i][d]
  {
    assert Mirrored(draws, n)[i + |draws|] == Scale(-1.0, draws[i]);
  }

  lemma MirrorPair(m: real, s: real, zi: real, zj: real, a: real, b: real)
    requires a - m == s * zi && b - m == s * zj && zj == -1.0 * zi
    ensures a + b == 2.0 * m
  {
  }

  /** `(x - mean) / sigma`: the noise reconstructed in `tell_strategy`. */
  function Noise(x: seq<Vector>, mean: Vector, sigma: Vector): (z: seq<Vector>)
    requires |sigma| == |mean| && IsMatrix(x, |x|, |mean|)
    requires forall d :: 0 <= d < |sigma| ==> sigma[d] != 0.0
    ensures IsMatrix(z, |x|, |mean|)
    ensures forall i, d :: 0 <= i < |x| && 0 <= d < |mean| ==> sigma[d] * z[i][d] == x[i][d] - mean[d]
  {
    seq(|x|, i requires 0 <= i < |x| =>
      seq(|mean|, d requires 0 <= d < |mean| => (x[i][d] - mean[d]) / sigma[d]))
  }

  /** Reconstructing the noise from the candidates recovers exactly the
      noise they were built from, whenever no step size is zero. */
  lemma NoiseInvertsCandidates(mean: Vector, sigma: Vector, z: seq<Vector>)
    requires |sigma| == |mean| && IsMatrix(z, |z|, |mean|)
    requires forall d :: 0 <= d < |sigma| ==> sigma[d] != 0.0
    ensures Noise(Candidates(mean, sigma, z), mean, sigma) == z
  {
    var x := Candidates(mean, sigma, z);
    var n := Noise(x, mean, sigma);
    forall i | 0 <= i < |z| ensures n[i] == z[i] {
      forall d | 0 <= d < |mean| ensures n[i][d] == z[i][d] {
        assert x[i][d] - mean[d] == sigma[d] * z[i][d];
        assert (sigma[d] * z[i][d]) / sigma[d] == z[i][d];
      }
    }
  }

  /** The factor `1 / (popsize * sigma_d)` of the gradient estimate. */
  function GradScale(popsize: nat, s: real): real
    requires popsize > 0 && s != 0.0
  {
    1.0 / ((popsize as real) * s)
  }

  /** `1 / (popsize * sigma) * noise.T @ fitness`: the Monte-Carlo estimate of
      the gradient of the expected fitness with respect to the mean. */
  function ThetaGrad(noise: seq<Vector>, fitness: seq<real>, sigma: Vector, popsize: nat): (g: Vector)
    requires IsMatrix(noise, |fitness|, |sigma|) && popsize > 0
    requires forall d :: 0 <= d < |sigma| ==> sigma[d] != 0.0
    ensures |g| == |sigma|
    ensures forall d :: 0 <= d < |sigma| ==> g[d] == GradScale(popsize, sigma[d]) * Dot(Column(noise, |sigma|, d), fitness)
  {
    seq(|sigma|, d requires 0 <= d < |sigma| =>
      GradScale(popsize, sigma[d]) * Dot(Column(noise, |sigma|, d), fitness))
  }

  /** With mirrored noise the estimate is a finite-difference one: each pair
      contributes its draw times the fitness difference across the pair. */
  lemma AntitheticGradient(draws: seq<Vector>, fitness: seq<real>, sigma: Vector, popsize: nat, d: nat)
    requires popsize > 0 && IsMatrix(draws, |draws|, |sigma|) && |fitness| == 2 * |draws|
    requires forall k :: 0 <= k < |sigma| ==> sigma[k] != 0.0
    requires d < |sigma|
    ensures ThetaGrad(Mirrored(draws, |sigma|), fitness, sigma, popsize)[d] ==
              GradScale(popsize, sigma[d]) *
                Dot(Column(draws, |sigma|, d), Sub(fitness[..|draws|], fitness[|draws|..]))
  {
    MirroredSum(draws, fitness, |sigma|, d);
  }

  /** The pair sum behind `AntitheticGradient`, without the scaling. */
  lemma MirroredSum(draws: seq<Vector>, fitness: seq<real>, n: nat, d: nat)
    requires IsMatrix(draws, |draws|, n) && |fitness| == 2 * |draws| && d < n
    ensures Dot(Column(Mirrored(draws, n), n, d), fitness) ==
            Dot(Column(draws, n, d), Sub(fitness[..|draws|], fitness[|draws|..]))
  {
    MirroredColumn(draws, n, d);
    MirroredDot(Column(draws, n, d), fitness);
  }

  lemma MirroredColumn(draws: seq<Vector>, n: nat, d: nat)
    requires IsMatrix(draws, |draws|, n) && d < n
    ensures Column(Mirrored(draws, n), n, d) == Column(draws, n, d) + Scale(-1.0, Column(draws, n, d))
  {
    var z := Mirrored(draws, n);
    var c := Column(draws, n, d);
    forall k | 0 <= k < 2 * |draws| ensures Column(z, n, d)[k] == (c + Scale(-1.0, c))[k] {
      if k >= |draws| {
        assert z[k] == Scale(-1.0, draws[k - |draws|]);
      }
    }
  }

  lemma MirroredDot(col: Vector, f: Vector)
    requires |f| == 2 * |col|
    ensures Dot(col + Scale(-1.0, col), f) == Dot(col, Sub(f[..|col|], f[|col|..]))
  {
    var fa, fb := f[..|col|], f[|col|..];
    assert f == fa + fb;
    DotAppend(col, Scale(-1.0, col), fa, fb);
    DotScale(-1.0, col, fb);
    DotSub(col, fa, fb);
  }

  /** Mirrored sampling sees no gradient in a flat landscape. */
  lemma FlatFitnessGivesZeroGradient(draws: seq<Vector>, fitness: seq<real>, sigma: Vector, popsize: nat, d: nat)
    requires popsize > 0 && IsMatrix(draws, |draws|, |sigma|) && |fitness| == 2 * |draws|
    requires forall k :: 0 <= k < |sigma| ==> sigma[k] != 0.0
    requires d < |sigma|
    requires forall i, j :: 0 <= i < |fitness| && 0 <= j < |fitness| ==> fitness[i] == fitness[j]
    ensures ThetaGrad(Mirrored(draws, |sigma|), fitness, sigma, popsize)[d] == 0.0
  {
    var h := |draws|;
    AntitheticGradient(draws, fitness, sigma, popsize, d);
    var diff := Sub(fitness[..h], fitness[h..]);
    assert diff == seq(h, _ => 0.0);
    DotScale(0.0, diff, Column(draws, |sigma|, d));
    assert Scale(0.0, diff) == diff;
    DotCommutes(Column(draws, |sigma|, d), diff);
  }

  /** `tell_strategy`: rebuild the noise, estimate the gradient, let the
      optimizer `step` the mean and `update` its own state, and decay `sigma`
      with `expDecay`; nothing else in the state changes. */
  function TellStrategy<P, O>(config: Config, state: EvoState<O>, params: EvoParams<P>,
                              x: seq<Vector>, fitness: seq<real>,
                              step: (Vector, Vector, O, P) -> (Vector, O),
                              update: (O, P) -> O,
                              expDecay: (Vector, real, real) -> Vector): (s: EvoState<O>)
    requires StateFits(config, state) && config.popsize > 0
    requires forall d :: 0 <= d < |state.sigma| ==> state.sigma[d] != 0.0
    requires IsMatrix(x, |fitness|, config.numDims)
    ensures var grad := ThetaGrad(Noise(x, state.mean, state.sigma), fitness, state.sigma, config.popsize);
            var stepped := step(state.mean, grad, state.optState, params.optParams);
            && s.mean == stepped.0
            && s.optState == update(stepped.1, params.optParams)
            && s.sigma == expDecay(state.sigma, params.sigmaDecay, params.sigmaLimit)
    ensures s.bestMember == state.bestMember && s.bestFitness == state.bestFitness
    ensures s.genCounter == state.genCounter
  {
    var noise := Noise(x, state.mean, state.sigma);
    var grad := ThetaGrad(noise, fitness, state.sigma, config.popsize);
    var stepped := step(state.mean, grad, state.optState, params.optParams);
    state.(mean := stepped.0, sigma := expDecay(state.sigma, params.sigmaDecay, params.sigmaLimit),
           optState := update(stepped.1, params.optParams))
  }

  /** Telling the candidates of the preceding ask feeds the optimizer the
      estimate built from the very noise that was sampled. */
  lemma AskThenTellUsesSampledNoise<P, O>(config: Config, state: EvoState<O>, params: EvoParams<P>,
                                         draws: seq<Vector>, fitness: seq<real>,
                                         step: (Vector, Vector, O, P) -> (Vector, O),
                                         update: (O, P) -> O,
                                         expDecay: (Vector, real, real) -> Vector)
    requires config.popsize % 2 == 0 && config.popsize > 0 && StateFits(config, state)
    requires forall d :: 0 <= d < |state.sigma| ==> state.sigma[d] != 0.0
    requires IsMatrix(draws, NumDraws(config), config.numDims) && |fitness| == config.popsize
    ensures var x := AskStrategy(config, state, draws).0;
            var z := SampledNoise(config, draws);
            IsMatrix(z, |fitness|, config.numDims) &&
            TellStrategy(config, state, params, x, fitness, step, update, expDecay).mean ==
              step(state.mean, ThetaGrad(z, fitness, state.sigma, config.popsize), state.optState, params.optParams).0
  {
    NoiseInvertsCandidates(state.mean, state.sigma, SampledNoise(config, draws));
  }
}

=== FILE: sim_anneal.dfy ===
/** Simulated annealing: one incumbent perturbed isotropically, Metropolis
    acceptance of the generation's best member, and floored decays of the
    step size and the temperature (evosax/strategies/sim_anneal.py). */
module SimAnneal {
  import opened Num
  import opened Sorting

  datatype Params = Params(
    stdInit: real,
    stdDecay: real,
    stdLimit: real,
    temperatureInit: real,
    temperatureLimit: real,
    temperatureDecay: real,
    boltzmannConstant: real)

  /** `_default_params`. */
  function DefaultParams(): Params {
    Params(1.0, 1.0, 0.0, 1.0, 0.1, 0.999, 5.0)
  }

  /** `currentSolution` is `None` while it is the NaN-filled placeholder of
      `_init`. The last three fields belong to the generic strategy wrapper. */
  datatype State = State(
    currentSolution: Option<Vector>,
    currentFitness: ExtReal,
    std: real,
    temperature: real,
    bestSolution: Option<Vector>,
    bestFitness: ExtReal,
    generationCounter: nat)

  /** `_init`: no incumbent yet, so its fitness is `+inf`. */
  function Init(params: Params): (s: State)
    ensures s.currentSolution == None && s.currentFitness == PosInf
    ensures s.std == params.stdInit && s.temperature == params.temperatureInit
    ensures s.bestSolution == None && s.bestFitness == PosInf && s.generationCounter == 0
  {
    State(None, PosInf, params.stdInit, params.temperatureInit, None, PosInf, 0)
  }

  /** `_ask`: each candidate is the incumbent plus `std` times a Gaussian row
      `z[i]`. An incumbent that is still NaN gives NaN candidates. */
  function Ask(state: State, numDims: nat, z: seq<Vector>): (r: (Option<seq<Vector>>, State))
    requires state.currentSolution.Some? ==> |state.currentSolution.value| == numDims
    requires IsMatrix(z, |z|, numDims)
    ensures r.1 == state
    ensures r.0.Some? <==> state.currentSolution.Some?
    ensures r.0.Some? ==> IsMatrix(r.0.value, |z|, numDims)
    ensures r.0.Some? ==> forall i, d :: 0 <= i < |z| && 0 <= d < numDims ==>
      r.0.value[i][d] - state.currentSolution.value[d] == state.std * z[i][d]
  {
    match state.currentSolution
    case None => (None, state)
    case Some(x) => (Some(seq(|z|, i requires 0 <= i < |z| => Perturb(x, state.std, z[i]))), state)
  }

  /** With a zero step size every candidate is the incumbent itself. */
  lemma AskZeroStd(state: State, numDims: nat, z: seq<Vector>, i: nat)
    requires state.currentSolution.Some? && |state.currentSolution.value| == numDims
    requires IsMatrix(z, |z|, numDims) && i < |z|
    requires state.std == 0.0
    ensures Ask(state, numDims, z).0.value[i] == state.currentSolution.value
  {
    PerturbZeroStep(state.currentSolution.value, z[i]);
  }

  /** `jnp.argmin`: the first index holding the smallest fitness. */
  function Argmin(fitness: seq<real>): (b: nat)
    requires |fitness| > 0
    ensures IsFirstArgmin(Lift(fitness), b)
  {
    if |fitness| == 1 then 0
    else
      var b' := Argmin(fitness[..|fitness| - 1]);
      assert forall j :: 0 <= j < |fitness| - 1 ==> Lift(fitness[..|fitness| - 1])[j] == Lift(fitness)[j];
      if fitness[|fitness| - 1] < fitness[b'] then |fitness| - 1 else b'
  }

  /** The Metropolis test: accept when the generation's best improves on the
      incumbent (`delta < 0`; always so against `+inf`) or when the uniform
      draw falls below `exp(-delta / (k T))`. A zero `k T` admits no
      non-improving move: the quotient is `-inf` or NaN there. */
  predicate Replaces(best: real, current: ExtReal, u: real, kT: real, exp: real -> real): (b: bool)
    ensures current == PosInf ==> b
    ensures current.Finite? && best < current.value ==> b
    ensures current.Finite? && best >= current.value && kT == 0.0 ==> !b
    ensures current.Finite? && best >= current.value && kT != 0.0 ==>
      (b <==> u < exp(-(best - current.value) / kT))
  {
    match current
    case PosInf => true
    case Finite(c) =>
      var delta := best - c;
      delta < 0.0 || (kT != 0.0 && u < exp(-delta / kT))
  }

  /** `_tell`. */
  function Tell(state: State, params: Params, population: seq<Vector>, fitness: seq<real>,
                u: real, exp: real -> real): (s: State)
    requires |fitness| == |population| > 0
    ensures var b := Argmin(fitness);
            var rep := Replaces(fitness[b], state.currentFitness, u,
                                params.boltzmannConstant * state.temperature, exp);
            && (rep ==> s.currentSolution == Some(population[b]) && s.currentFitness == Finite(fitness[b]))
            && (!rep ==> s.currentSolution == state.currentSolution && s.currentFitness == state.currentFitness)
    ensures s.std >= params.stdLimit && s.temperature >= params.temperatureLimit
    ensures s.std == DecayFloored(state.std, params.stdDecay, params.stdLimit)
    ensures s.temperature == DecayFloored(state.temperature, params.temperatureDecay, params.temperatureLimit)
    ensures s.bestSolution == state.bestSolution && s.bestFitness == state.bestFitness
    ensures s.generationCounter == state.generationCounter
  {
    var b := Argmin(fitness);
    var bestMember, bestFitness := population[b], fitness[b];
    var replace := Replaces(bestFitness, state.currentFitness, u,
                            params.boltzmannConstant * state.temperature, exp);
    state.(
      currentSolution := if replace then Some(bestMember) else state.currentSolution,
      currentFitness := if replace then Finite(bestFitness) else state.currentFitness,
      std := DecayFloored(state.std, params.stdDecay, params.stdLimit),
      temperature := DecayFloored(state.temperature, params.temperatureDecay, params.temperatureLimit))
  }

  /** A strict improvement is always taken, whatever the uniform draw, and
      the new incumbent is the generation's first best member. */
  lemma ImprovementAlwaysAccepted(state: State, params: Params, population: seq<Vector>, fitness: seq<real>,
                                  u: real, exp: real -> real)
    requires |fitness| == |population| > 0
    requires exists i :: 0 <= i < |fitness| && Lt(Finite(fitness[i]), state.currentFitness)
    ensures var s := Tell(state, params, population, fitness, u, exp);
            exists b: nat :: IsFirstArgmin(Lift(fitness), b) &&
              s.currentSolution == Some(population[b]) && s.currentFitness == Finite(fitness[b])
  {
    var b := Argmin(fitness);
    var i :| 0 <= i < |fitness| && Lt(Finite(fitness[i]), state.currentFitness);
    assert Le(Lift(fitness)[b], Lift(fitness)[i]);
  }

  /** The incumbent's fitness is always one that was really observed with it:
      either the old pair is kept, or the told member and its told fitness. */
  lemma TellKeepsIncumbentConsistent(state: State, params: Params, population: seq<Vector>, fitness: seq<real>,
                                     u: real, exp: real -> real)
    requires |fitness| == |population| > 0
    ensures var s := Tell(state, params, population, fitness, u, exp);
            || (s.currentSolution == state.currentSolution && s.currentFitness == state.currentFitness)
            || (exists b :: 0 <= b < |fitness| &&
                  s.currentSolution == Some(population[b]) && s.currentFitness == Finite(fitness[b]))
  {
  }

  /** The first `_tell` after `_init` always installs an incumbent, because
      anything beats `+inf`. */
  lemma FirstTellAccepts(params: Params, population: seq<Vector>, fitness: seq<real>, u: real, exp: real -> real)
    requires |fitness| == |population| > 0
    ensures Tell(Init(params), params, population, fitness, u, exp).currentSolution.Some?
    ensures Tell(Init(params), params, population, fitness, u, exp).currentFitness.Finite?
  {
  }

  /** Under the default parameters `k T` never reaches zero: the initial
      temperature is at or above the floor 0.1, `_tell` keeps it there, and
      with `k = 5` the product is at least 0.5. A non-improving move is then
      always decided by the draw against `exp(-delta / (k T))`. */
  lemma DefaultsKeepTemperaturePositive(state: State, population: seq<Vector>, fitness: seq<real>,
                                        u: real, exp: real -> real)
    requires |fitness| == |population| > 0
    requires state.temperature >= DefaultParams().temperatureLimit
    ensures Init(DefaultParams()).temperature >= DefaultParams().temperatureLimit
    ensures DefaultParams().boltzmannConstant * state.temperature >= 0.5
    ensures Tell(state, DefaultParams(), population, fitness, u, exp).temperature >= DefaultParams().temperatureLimit
  {
  }

  /** Once at or above their floors, step size and temperature never grow
      under decays of at most 1, accepted or not. */
  lemma TellCools(state: State, params: Params, population: seq<Vector>, fitness: seq<real>,
                  u: real, exp: real -> real)
    requires |fitness| == |population| > 0
    requires 0.0 <= state.std && params.stdDecay <= 1.0 && params.stdLimit <= state.std
    requires 0.0 <= state.temperature && params.temperatureDecay <= 1.0 && params.temperatureLimit <= state.temperature
    ensures var s := Tell(state, params, population, fitness, u, exp);
            s.std <= state.std && s.temperature <= state.temperature
  {
    DecayFlooredNeverGrows(state.std, params.stdDecay, params.stdLimit);
    DecayFlooredNeverGrows(state.temperature, params.temperatureDecay, params.temperatureLimit);
  }
}

=== FILE: simple_ga.dfy ===
/** Simple genetic algorithm: elite-only parent selection, uniform mask
    crossover, additive Gaussian mutation and a floored geometric decay of the
    mutation scale (evosax/strategies/simple_ga.py). The random draws arrive
    as inputs. */
module SimpleGA {
  import opened Num
  import opened Sorting

  datatype Params = Params(
    crossoverRate: real,
    stdInit: real,
    stdDecay: real,
    stdLimit: real)

  /** `_default_params`. */
  function DefaultParams(): Params {
    Params(0.0, 1.0, 1.0, 0.0)
  }

  /** `population` is `None` while it is the NaN-filled placeholder of
      `_init`; `fitness` holds `+inf` for members never evaluated. The last
      three fields belong to the generic strategy wrapper. */
  datatype State = State(
    population: Option<seq<Vector>>,
    fitness: seq<ExtReal>,
    std: real,
    bestSolution: Option<Vector>,
    bestFitness: ExtReal,
    generationCounter: nat)

  /** `_init`: nothing evaluated yet. */
  function Init(populationSize: nat, params: Params): (s: State)
    ensures s.population == None && s.bestSolution == None
    ensures |s.fitness| == populationSize && forall i :: 0 <= i < populationSize ==> s.fitness[i] == PosInf
    ensures s.std == params.stdInit && s.bestFitness == PosInf && s.generationCounter == 0
  {
    State(None, seq(populationSize, _ => PosInf), params.stdInit, None, PosInf, 0)
  }

  /** Every never-evaluated member ties with every other one, so the first
      sort after `_init` keeps the population in index order. */
  lemma InitSortsInIndexOrder(populationSize: nat, params: Params, k: nat)
    requires k < populationSize
    ensures Argsort(Init(populationSize, params).fitness)[k] == k
  {
    var f := Init(populationSize, params).fitness;
    var idx := Argsort(f);
    forall a, b | 0 <= a < b < populationSize ensures idx[a] < idx[b] {
      assert Before(f, idx[a], idx[b]);
    }
    IncreasingAbove(idx, populationSize, k);
    IncreasingBelow(idx, populationSize, k);
  }

  lemma {:induction false} IncreasingAbove(s: seq<nat>, n: nat, k: nat)
    requires |s| == n && k < n
    requires forall a, b :: 0 <= a < b < n ==> s[a] < s[b]
    ensures s[k] >= k
  {
    if k > 0 { IncreasingAbove(s, n, k - 1); }
  }

  lemma {:induction false} IncreasingBelow(s: seq<nat>, n: nat, k: nat)
    requires |s| == n && k < n
    requires forall j :: 0 <= j < n ==> s[j] < n
    requires forall a, b :: 0 <= a < b < n ==> s[a] < s[b]
    ensures s[k] <= k
    decreases n - k
  {
    if k < n - 1 { IncreasingBelow(s, n, k + 1); }
  }

  /** `crossover`: gene `d` comes from `parent2` when the uniform draw `u[d]`
      falls below the crossover rate, and from `parent1` otherwise. */
  function Crossover(parent1: Vector, parent2: Vector, u: Vector, crossoverRate: real): (child: Vector)
    requires |parent2| == |parent1| && |u| == |parent1|
    ensures |child| == |parent1|
    ensures forall d :: 0 <= d < |child| ==> child[d] == (if u[d] < crossoverRate then parent2[d] else parent1[d])
  {
    seq(|parent1|, d requires 0 <= d < |parent1| =>
      var mask := if u[d] < crossoverRate then 1.0 else 0.0;
      parent1[d] * (1.0 - mask) + parent2[d] * mask)
  }

  /** With a zero crossover rate and draws in `[0, 1)`, the child is `parent1`. */
  lemma CrossoverZeroRate(parent1: Vector, parent2: Vector, u: Vector)
    requires |parent2| == |parent1| && |u| == |parent1|
    requires forall d :: 0 <= d < |u| ==> 0.0 <= u[d]
    ensures Crossover(parent1, parent2, u, 0.0) == parent1
  {
  }

  /** Under the default parameters there is no crossover: the child takes
      every gene from its first parent. */
  lemma DefaultsDoNotCross(parent1: Vector, parent2: Vector, u: Vector)
    requires |parent2| == |parent1| && |u| == |parent1|
    requires forall d :: 0 <= d < |u| ==> 0.0 <= u[d]
    ensures Crossover(parent1, parent2, u, DefaultParams().crossoverRate) == parent1
  {
    CrossoverZeroRate(parent1, parent2, u);
  }

  /** `mutation`: add `std` times the Gaussian draw `z` to every gene. */
  function Mutation(solution: Vector, std: real, z: Vector): (r: Vector)
    requires |z| == |solution|
    ensures |r| == |solution|
    ensures std == 0.0 ==> r == solution
  {
    Perturb(solution, std, z)
  }

  /** `num_elites` is fixed by the strategy wrapper; draws index the sorted
      population and only ever land among its first `numElites` rows. */
  ghost predicate AskInputs(state: State, numDims: nat, numElites: nat,
                            draws1: seq<nat>, draws2: seq<nat>, u: seq<Vector>, z: seq<Vector>) {
    var n := |state.fitness|;
    && 1 <= numElites <= n
    && (state.population.Some? ==> IsMatrix(state.population.value, n, numDims))
    && |draws1| == n && |draws2| == n
    && (forall i :: 0 <= i < n ==> draws1[i] < numElites && draws2[i] < numElites)
    && IsMatrix(u, n, numDims) && IsMatrix(z, n, numDims)
  }

  /** `_ask`: sort by fitness, pick both parents of each child among the
      elites, cross over, mutate. The state is returned unchanged. */
  function Ask(state: State, params: Params, numDims: nat, numElites: nat,
               draws1: seq<nat>, draws2: seq<nat>, u: seq<Vector>, z: seq<Vector>): (r: (Option<seq<Vector>>, State))
    requires AskInputs(state, numDims, numElites, draws1, draws2, u, z)
    ensures r.1 == state
    ensures r.0.Some? <==> state.population.Some?
    ensures r.0.Some? ==> IsMatrix(r.0.value, |state.fitness|, numDims)
  {
    var n := |state.fitness|;
    var idx := Argsort(state.fitness);
    match state.population
    case None => (None, state)
    case Some(pop) =>
      var sorted := Gather(pop, idx);
      var children := seq(n, i requires 0 <= i < n =>
        Mutation(Crossover(sorted[draws1[i]], sorted[draws2[i]], u[i], params.crossoverRate), state.std, z[i]));
      (Some(children), state)
  }

  /** Member `j` is one of the `numElites` best: its rank is below `numElites`. */
  ghost predicate IsElite(fitness: seq<ExtReal>, j: nat, numElites: nat) {
    j < |fitness| && Ranks(fitness)[j] < numElites
  }

  /** An elite's fitness is no worse than any non-elite's. */
  lemma EliteBeatsNonElite(fitness: seq<ExtReal>, j: nat, m: nat, numElites: nat)
    requires IsElite(fitness, j, numElites) && m < |fitness| && !IsElite(fitness, m, numElites)
    ensures Le(fitness[j], fitness[m])
  {
    RanksOrder(fitness, j, m);
  }

  /** Child `i` is bred from the members sorted to places `draws1[i]` and
      `draws2[i]`, and those members' ranks are the draws. */
  lemma AskChild(state: State, params: Params, numDims: nat, numElites: nat,
                 draws1: seq<nat>, draws2: seq<nat>, u: seq<Vector>, z: seq<Vector>, i: nat)
    requires AskInputs(state, numDims, numElites, draws1, draws2, u, z)
    requires state.population.Some? && i < |state.fitness|
    ensures var idx := Argsort(state.fitness);
            && idx[draws1[i]] < |state.fitness| && idx[draws2[i]] < |state.fitness|
            && Ranks(state.fitness)[idx[draws1[i]]] == draws1[i]
            && Ranks(state.fitness)[idx[draws2[i]]] == draws2[i]
            && Ask(state, params, numDims, numElites, draws1, draws2, u, z).0.value[i] ==
                 Mutation(Crossover(state.population.value[idx[draws1[i]]], state.population.value[idx[draws2[i]]],
                                    u[i], params.crossoverRate), state.std, z[i])
  {
  }

  /** Both parents of every child are elites of the current population, and
      the child is their crossover, mutated. */
  lemma AskParentsAreElites(state: State, params: Params, numDims: nat, numElites: nat,
                            draws1: seq<nat>, draws2: seq<nat>, u: seq<Vector>, z: seq<Vector>, i: nat)
    requires AskInputs(state, numDims, numElites, draws1, draws2, u, z)
    requires state.population.Some? && i < |state.fitness|
    ensures exists j1: nat, j2: nat ::
      && IsElite(state.fitness, j1, numElites)
      && IsElite(state.fitness, j2, numElites)
      && Ask(state, params, numDims, numElites, draws1, draws2, u, z).0.value[i] ==
           Mutation(Crossover(state.population.value[j1], state.population.value[j2], u[i], params.crossoverRate),
                    state.std, z[i])
  {
    var idx := Argsort(state.fitness);
    AskChild(state, params, numDims, numElites, draws1, draws2, u, z, i);
    var j1, j2 := idx[draws1[i]], idx[draws2[i]];
    assert IsElite(state.fitness, j1, numElites) && IsElite(state.fitness, j2, numElites);
  }

  /** With a zero crossover rate and a zero step size each child is a copy of
      an elite. */
  lemma AskCopiesElitesWithoutVariation(state: State, params: Params, numDims: nat, numElites: nat,
                                       draws1: seq<nat>, draws2: seq<nat>, u: seq<Vector>, z: seq<Vector>, i: nat)
    requires AskInputs(state, numDims, numElites, draws1, draws2, u, z)
    requires state.population.Some? && i < |state.fitness|
    requires params.crossoverRate == 0.0 && state.std == 0.0
    requires forall k, d :: 0 <= k < |u| && 0 <= d < numDims ==> 0.0 <= u[k][d]
    ensures exists j: nat ::
      && IsElite(state.fitness, j, numElites)
      && Ask(state, params, numDims, numElites, draws1, draws2, u, z).0.value[i] == state.population.value[j]
  {
    var idx := Argsort(state.fitness);
    var j := idx[draws1[i]];
    var pop := state.population.value;
    AskChild(state, params, numDims, numElites, draws1, draws2, u, z, i);
    assert IsElite(state.fitness, j, numElites);
    CrossoverZeroRate(pop[j], pop[idx[draws2[i]]], u[i]);
  }

  /** Under the default parameters (decay 1, floor 0) the mutation scale
      starts at 1 and no `_tell` ever changes it. */
  lemma DefaultsKeepStd(populationSize: nat, state: State, population: seq<Vector>, fitness: seq<real>)
    requires state.std >= 0.0
    ensures Init(populationSize, DefaultParams()).std == 1.0
    ensures Tell(state, DefaultParams(), population, fitness).std == state.std
  {
  }

  /** `_tell`: keep the evaluated generation verbatim and decay `std`. */
  function Tell(state: State, params: Params, population: seq<Vector>, fitness: seq<real>): (s: State)
    ensures s.population == Some(population) && s.fitness == Lift(fitness)
    ensures s.std >= params.stdLimit
    ensures s.std == DecayFloored(state.std, params.stdDecay, params.stdLimit)
    ensures s.bestSolution == state.bestSolution && s.bestFitness == state.bestFitness
    ensures s.generationCounter == state.generationCounter
  {
    state.(population := Some(population), fitness := Lift(fitness),
           std := DecayFloored(state.std, params.stdDecay, params.stdLimit))
  }

  /** Once at or above its floor, `std` never grows under a decay of at most 1. */
  lemma TellStdNeverGrows(state: State, params: Params, population: seq<Vector>, fitness: seq<real>)
    requires 0.0 <= state.std && params.stdDecay <= 1.0 && params.stdLimit <= state.std
    ensures params.stdLimit <= Tell(state, params, population, fitness).std <= state.std
  {
    DecayFlooredNeverGrows(state.std, params.stdDecay, params.stdLimit);
  }

  /** After a `_tell`, the next `_ask` breeds only from the members of the told
      generation whose told fitness is among the `numElites` lowest. */
  lemma TellThenAskUsesToldElites(state: State, params: Params, population: seq<Vector>, fitness: seq<real>,
                                  numDims: nat, numElites: nat,
                                  draws1: seq<nat>, draws2: seq<nat>, u: seq<Vector>, z: seq<Vector>, i: nat, m: nat)
    requires AskInputs(Tell(state, params, population, fitness), numDims, numElites, draws1, draws2, u, z)
    requires i < |fitness| && m < |fitness|
    requires !IsElite(Lift(fitness), m, numElites)
    ensures exists j: nat ::
      && IsElite(Lift(fitness), j, numElites)
      && fitness[j] <= fitness[m]
      && Ask(Tell(state, params, population, fitness), params, numDims, numElites, draws1, draws2, u, z).0.value[i] ==
           Mutation(Crossover(population[j], population[Argsort(Lift(fitness))[draws2[i]]], u[i], params.crossoverRate),
                    Tell(state, params, population, fitness).std, z[i])
  {
    var f := Lift(fitness);
    var j := Argsort(f)[draws1[i]];
    AskChild(Tell(state, params, population, fitness), params, numDims, numElites, draws1, draws2, u, z, i);
    EliteBeatsNonElite(f, j, m, numElites);
  }
}

=== FILE: sorting.dfy ===
/** Stable `argsort` over fitness values and its inverse permutation (the
    ranks). Both fitness shaping and the strategies that reorder their
    population by fitness rely on these. */
module Sorting {
  import opened Num

  /** Index `i` precedes index `j` in a stable ascending sort of `f`:
      smaller fitness first, ties kept in index order. */
  predicate Before(f: seq<ExtReal>, i: nat, j: nat)
    requires i < |f| && j < |f|
  {
    Lt(f[i], f[j]) || (f[i] == f[j] && i < j)
  }

  lemma BeforeIsStrictTotalOrder(f: seq<ExtReal>, i: nat, j: nat, k: nat)
    requires i < |f| && j < |f| && k < |f|
    ensures !Before(f, i, i)
    ensures i != j ==> (Before(f, i, j) <==> !Before(f, j, i))
    ensures Before(f, i, j) && Before(f, j, k) ==> Before(f, i, k)
  {
  }

  /** Strictly increasing in the stable order: sorted, without repeats. */
  predicate SortedBy(f: seq<ExtReal>, s: seq<nat>)
    requires forall k :: 0 <= k < |s| ==> s[k] < |f|
  {
    forall a, b :: 0 <= a < b < |s| ==> Before(f, s[a], s[b])
  }

  /** `s` lists each of `0 .. n-1` exactly once. */
  ghost predicate IsPermutation(s: seq<nat>, n: nat) {
    && |s| == n
    && (forall k :: 0 <= k < |s| ==> s[k] < n)
    && (forall x :: 0 <= x < n ==> x in s)
    && (forall a, b :: 0 <= a < b < |s| ==> s[a] != s[b])
  }

  /** The head of a sorted sequence precedes every later entry. */
  lemma HeadPrecedesTail(f: seq<ExtReal>, s: seq<nat>)
    requires |s| > 0 && forall k :: 0 <= k < |s| ==> s[k] < |f|
    requires SortedBy(f, s)
    ensures forall x :: x in s[1..] ==> x < |f| && Before(f, s[0], x)
  {
    forall x | x in s[1..] ensures x < |f| && Before(f, s[0], x) {
      var k :| 0 <= k < |s[1..]| && s[1..][k] == x;
      assert s[k + 1] == x;
    }
  }

  lemma ConsMembers(h: nat, t: seq<nat>)
    ensures forall b :: 1 <= b < |[h] + t| ==> ([h] + t)[b] in t
  {
    forall b | 1 <= b < |[h] + t| ensures ([h] + t)[b] in t {
      assert ([h] + t)[b] == t[b - 1];
    }
  }

  /** Inserts index `i` into the sorted `s`, after every entry whose fitness
      is not larger (so earlier indices stay first among equals). */
  function Insert(f: seq<ExtReal>, i: nat, s: seq<nat>): (r: seq<nat>)
    requires i < |f|
    requires forall k :: 0 <= k < |s| ==> s[k] < i
    requires SortedBy(f, s)
    ensures |r| == |s| + 1
    ensures forall x :: x in r <==> x in s || x == i
    ensures forall k :: 0 <= k < |r| ==> r[k] < |f|
    ensures SortedBy(f, r)
  {
    if s == [] then [i]
    else if Lt(f[i], f[s[0]]) then
      assert forall k :: 0 <= k < |s| ==> Before(f, s[0], s[k]) || k == 0;
      [i] + s
    else
      var t := Insert(f, i, s[1..]);
      HeadPrecedesTail(f, s);
      ConsMembers(s[0], t);
      [s[0]] + t
  }

  function ArgsortPrefix(f: seq<ExtReal>, n: nat): (r: seq<nat>)
    requires n <= |f|
    ensures |r| == n
    ensures forall x :: 0 <= x < n ==> x in r
    ensures forall k :: 0 <= k < |r| ==> r[k] < n
    ensures SortedBy(f, r)
  {
    if n == 0 then []
    else
      var s := ArgsortPrefix(f, n - 1);
      assert forall k :: 0 <= k < |s| ==> s[k] < n - 1;
      var r := Insert(f, n - 1, s);
      assert forall k :: 0 <= k < |r| ==> r[k] in r;
      r
  }

  /** `jnp.argsort(f)`: the indices of `f` in stable ascending order. */
  function Argsort(f: seq<ExtReal>): (idx: seq<nat>)
    ensures IsPermutation(idx, |f|)
    ensures SortedBy(f, idx)
  {
    var idx := ArgsortPrefix(f, |f|);
    assert forall a, b :: 0 <= a < b < |idx| ==> idx[a] != idx[b] by {
      forall a, b | 0 <= a < b < |idx| ensures idx[a] != idx[b] {
        assert Before(f, idx[a], idx[b]);
      }
    }
    idx
  }

  /** Sorted by fitness: the fitness values read in `Argsort` order never
      decrease, and equal values keep their index order. */
  lemma ArgsortAscending(f: seq<ExtReal>, a: nat, b: nat)
    requires a < b < |f|
    ensures Le(f[Argsort(f)[a]], f[Argsort(f)[b]])
    ensures f[Argsort(f)[a]] == f[Argsort(f)[b]] ==> Argsort(f)[a] < Argsort(f)[b]
  {
    var idx := Argsort(f);
    assert Before(f, idx[a], idx[b]);
  }

  /** Position of `x` in `p`. */
  function IndexOf(p: seq<nat>, x: nat): (k: nat)
    requires x in p
    ensures k < |p| && p[k] == x
    ensures forall j :: 0 <= j < k ==> p[j] != x
  {
    if p[0] == x then 0 else 1 + IndexOf(p[1..], x)
  }

  /** `idx.at[idx].set(arange(n))`: the inverse permutation, `r[idx[k]] == k`. */
  function Inverse(idx: seq<nat>): (r: seq<nat>)
    requires IsPermutation(idx, |idx|)
    ensures IsPermutation(r, |idx|)
    ensures forall k :: 0 <= k < |idx| ==> r[idx[k]] == k
    ensures forall i :: 0 <= i < |idx| ==> idx[r[i]] == i
  {
    var n := |idx|;
    var r := seq(n, i requires 0 <= i < n => IndexOf(idx, i));
    forall k | 0 <= k < n ensures r[idx[k]] == k {
      var j := r[idx[k]];
      assert idx[j] == idx[k];
    }
    assert forall a, b :: 0 <= a < b < n ==> r[a] != r[b] by {
      forall a, b | 0 <= a < b < n ensures r[a] != r[b] {
        assert idx[r[a]] == a && idx[r[b]] == b;
      }
    }
    assert forall x :: 0 <= x < n ==> x in r by {
      forall x: nat | x < n ensures x in r {
        assert r[idx[x]] == x;
      }
    }
    r
  }

  /** `ranksort`: the rank of every member, i.e. its position in the stable
      ascending order. */
  function Ranks(f: seq<ExtReal>): (r: seq<nat>)
    ensures IsPermutation(r, |f|)
  {
    Inverse(Argsort(f))
  }

  /** A member ranks below another exactly when it comes first in the stable
      ascending order: lower fitness, or equal fitness and lower index. */
  lemma RanksOrder(f: seq<ExtReal>, i: nat, j: nat)
    requires i < |f| && j < |f|
    ensures Ranks(f)[i] < Ranks(f)[j] <==> Before(f, i, j)
  {
    var idx := Argsort(f);
    var r := Ranks(f);
    var a, b := r[i], r[j];
    assert idx[a] == i && idx[b] == j;
    if a < b {
      assert Before(f, i, j);
    } else if b < a {
      assert Before(f, j, i);
      BeforeIsStrictTotalOrder(f, i, j, j);
    } else {
      assert i == j;
    }
  }

  /** `jnp.argmin` semantics: a minimum, and the first one. */
  predicate IsFirstArgmin(f: seq<ExtReal>, i: nat) {
    && i < |f|
    && (forall j :: 0 <= j < |f| ==> Le(f[i], f[j]))
    && (forall j :: 0 <= j < i ==> Lt(f[i], f[j]))
  }

  /** A maximum that no later index equals. */
  predicate IsLastArgmax(f: seq<ExtReal>, i: nat) {
    && i < |f|
    && (forall j :: 0 <= j < |f| ==> Le(f[j], f[i]))
    && (forall j :: i < j < |f| ==> Lt(f[j], f[i]))
  }

  lemma FirstArgminIsFirstInOrder(f: seq<ExtReal>, i: nat)
    requires i < |f|
    ensures IsFirstArgmin(f, i) <==> forall j :: 0 <= j < |f| && j != i ==> Before(f, i, j)
  {
    if forall j :: 0 <= j < |f| && j != i ==> Before(f, i, j) {
      forall j | 0 <= j < |f| ensures Le(f[i], f[j]) {
        if j != i { assert Before(f, i, j); }
      }
      forall j | 0 <= j < i ensures Lt(f[i], f[j]) {
        assert Before(f, i, j);
      }
    }
  }

  lemma LastArgmaxIsLastInOrder(f: seq<ExtReal>, i: nat)
    requires i < |f|
    ensures IsLastArgmax(f, i) <==> forall j :: 0 <= j < |f| && j != i ==> Before(f, j, i)
  {
    if forall j :: 0 <= j < |f| && j != i ==> Before(f, j, i) {
      forall j | 0 <= j < |f| ensures Le(f[j], f[i]) {
        if j != i { assert Before(f, j, i); }
      }
      forall j | i < j < |f| ensures Lt(f[j], f[i]) {
        assert Before(f, j, i);
      }
    }
  }

  /** Rank 0 belongs exactly to the first minimum. */
  lemma RankZeroIffFirstArgmin(f: seq<ExtReal>, i: nat)
    requires i < |f|
    ensures Ranks(f)[i] == 0 <==> IsFirstArgmin(f, i)
  {
    var r := Ranks(f);
    FirstArgminIsFirstInOrder(f, i);
    if r[i] == 0 {
      forall j | 0 <= j < |f| && j != i ensures Before(f, i, j) {
        RanksOrder(f, i, j);
      }
    }
    if IsFirstArgmin(f, i) {
      assert 0 in r;
      var j :| 0 <= j < |r| && r[j] == 0;
      if j != i {
        RanksOrder(f, i, j);
      }
    }
  }

  /** Rank `n-1` belongs exactly to the last maximum. */
  lemma RankTopIffLastArgmax(f: seq<ExtReal>, i: nat)
    requires i < |f|
    ensures Ranks(f)[i] == |f| - 1 <==> IsLastArgmax(f, i)
  {
    var r := Ranks(f);
    var n := |f|;
    LastArgmaxIsLastInOrder(f, i);
    assert r[i] in r;
    if r[i] == n - 1 {
      forall j | 0 <= j < n && j != i ensures Before(f, j, i) {
        assert r[j] in r;
        RanksOrder(f, j, i);
      }
    }
    if IsLastArgmax(f, i) {
      assert n - 1 in r;
      var j :| 0 <= j < |r| && r[j] == n - 1;
      if j != i {
        RanksOrder(f, j, i);
      }
    }
  }

  /** `seq[idx]`: the rows of `s` gathered in the order `idx`. */
  function Gather<T>(s: seq<T>, idx: seq<nat>): (r: seq<T>)
    requires forall k :: 0 <= k < |idx| ==> idx[k] < |s|
    ensures |r| == |idx|
    ensures forall k :: 0 <= k < |idx| ==> r[k] == s[idx[k]]
  {
    seq(|idx|, k requires 0 <= k < |idx| => s[idx[k]])
  }

  /** Gathering by a permutation only reorders: the same rows, as a multiset. */
  lemma {:induction false} GatherPermutation<T>(s: seq<T>, idx: seq<nat>)
    requires IsPermutation(idx, |s|)
    ensures multiset(Gather(s, idx)) == multiset(s)
  {
    if s != [] {
      var n := |s|;
      var g := Gather(s, idx);
      var p := IndexOf(idx, n - 1);
      var idx' := idx[..p] + idx[p + 1..];
      RemoveLast(idx, p);
      GatherPermutation(s[..n - 1], idx');
      GatherRemove(s, idx, p);
      assert g == g[..p] + [g[p]] + g[p + 1..];
      assert s == s[..n - 1] + [s[n - 1]];
    }
  }

  /** Dropping the largest index from a permutation leaves a permutation. */
  lemma RemoveLast(idx: seq<nat>, p: nat)
    requires |idx| > 0 && IsPermutation(idx, |idx|)
    requires p < |idx| && idx[p] == |idx| - 1
    ensures IsPermutation(idx[..p] + idx[p + 1..], |idx| - 1)
  {
    var n := |idx|;
    var idx' := idx[..p] + idx[p + 1..];
    assert forall k :: 0 <= k < |idx'| ==> idx'[k] == (if k < p then idx[k] else idx[k + 1]);
    forall x: nat | x < n - 1 ensures x in idx' {
      assert x in idx;
      var k :| 0 <= k < |idx| && idx[k] == x;
      if k < p { assert idx'[k] == x; } else { assert idx'[k - 1] == x; }
    }
  }

  lemma GatherRemove<T>(s: seq<T>, idx: seq<nat>, p: nat)
    requires |s| > 0 && IsPermutation(idx, |s|)
    requires p < |idx| && idx[p] == |s| - 1
    requires IsPermutation(idx[..p] + idx[p + 1..], |s| - 1)
    ensures Gather(s[..|s| - 1], idx[..p] + idx[p + 1..]) == Gather(s, idx)[..p] + Gather(s, idx)[p + 1..]
  {
  }
}
